=== FILE: README.md ===
# Resampler session model

A Dafny model of the resampler session in `resample.go` (package `main` of
AudioResample). That file is a Go wrapper around libsoxr. The model covers:

- **Construction.** `New` checks the two rates, the channel count, the quality and the
  format, in that order, and the first check that fails decides the error. It then maps
  the format to bytes per sample: 8 for F64, 4 for F32 and I32, 2 for I16. The field
  `frameSize` holds bytes per *sample*, so a frame takes `frameSize * channels` bytes.
- **Lifecycle.** A session is open while it holds a non-nil `soxr_t` handle. `Close`
  and `Write` check the handle first. `Close` sets the handle to nil. After that, every
  call fails with "soxr resampler is nil".
- **Frame arithmetic in `Write`.**
  - The trailing fragment `len(p) % (frameSize*channels)` is dropped.
  - `framesIn = len/frameSize/channels`, using Go's division, which truncates toward zero.
  - `framesOut = int(framesIn * outRate/inRate)`. The model computes it as an exact
    rational, truncated.
  - The output allocation holds `framesOut` frames. The byte count copied out is
    `done * channels * frameSize`.
- **Engine-driving loop.** `soxr_process` is called repeatedly. When a call has read all
  input but produced too few frames, one extra end-of-input flush call follows.

soxr is an abstract engine (`Engine.Engine`): a reply for each call made during one
`Write`. The only constraints (`Engine.Conforming`) are that frames read do not exceed
frames offered, and frames written do not exceed frames requested. An error text of ""
or "0" means success, matching the Go check.

The output buffer is a sequence of frame slots. Each slot is one of: never written,
written as frame `pos` of engine call `call`, or past the end of the allocation. This
makes visible where each frame that `C.GoBytes` copies out came from.

The loop runs on fuel, one unit per pass, and `Unfinished` means `Write` has not
returned yet. The loop resubmits the same `dataIn`/`framesIn` and overwrites `done`, so
an engine that keeps answering "read 0, wrote 0" keeps `Write` in the loop forever
(`WriteFacts.StallingEngineHangs`). An engine that always reads all its input lets it
return after one pass (`WriteFacts.EagerEngineReturns`). Fuel only bounds observation:
more fuel never changes a returned result (`WriteFacts.FuelOnlyBounds`).

The flush is modelled twice, selected by `Streaming.Policy`:

- `AsWritten` is the Go code. The flush asks for `framesOut` frames, which land at the
  start of `dataOut`, and then `done += d`.
- `Corrected` asks for `framesOut - done` frames and writes them after the frames
  already there. The surrounding code implies this behaviour:
  - `dataOut` holds exactly `framesOut` frames (resample.go:122);
  - the flush only collects what soxr still holds once input is exhausted
    (resample.go:131-132);
  - `C.GoBytes` returns the first `done` frames as the output (resample.go:144).

`Streaming.Admit` is the part of `Write` before the loop: the checks, in the Go order,
ending either in an early return or in the pass the loop runs. `Streaming.Write` (with
its loop `Streaming.Drive`) follows the Go function check by check and agrees with it
on every path, and is proved equal to the functional `Streaming.Outcome(AsWritten, …)`.
For a negative `framesOut` the Go code allocates no frames, skips the loop and copies
no bytes; the model returns that same result at once.

The model keeps three behaviours of the code that the code itself does not seem to
intend:

- The flush asks for `framesOut` frames again and writes them at the start of
  `dataOut`, although `done` frames are already there (resample.go:122, :134,
  :139-144). See Findings.
- The channel check rejects only 0 (resample.go:51). The error text "Invalid channels
  number" and the unsigned conversion `C.uint(channels)` at resample.go:73 suggest that
  every count below 1 is invalid, but negative counts pass. See Findings.
- `framesIn` uses Go's truncating division (resample.go:111). With a negative channel
  count it is at most 0, so `Write` never reaches the engine and returns no frames
  (`WriteFacts.NegativeChannelsWrite`).

## Model

| member | source | states |
|---|---|---|
| GoInt.QuoBounds | resample.go:111 | Go's integer `/`: the remainder `a - q*b` is smaller than `b` in magnitude and has the sign of `a` |
| GoInt.RemBounds | resample.go:108 | Go's `%`: `a == Quo(a,b)*b + r`, `abs(r) < abs(b)`, `r` has the sign of `a` |
| GoInt.TruncBounds | resample.go:116 | Go's float-to-int conversion: `n <= x < n+1` for `x >= 0`, `n-1 < x <= n` for `x < 0` |
| Session.Message | resample.go:45-118 | each error's text; a soxr error carries the soxr text verbatim, every other text is non-empty |
| Session.MessageIdentifies | resample.go:49-118 | the session's own error texts are pairwise distinct, so the text identifies the error, and none of them is "" or "0" |
| Session.IsSoxrError | resample.go:127 | soxr's error text counts as an error unless it is "" or "0". The same test appears at resample.go:74 and :135. `Session.New` and `Streaming.Loop` state its use |
| Session.SampleBytes | resample.go:57-66 | the format table: F64 gives 8 bytes per sample, F32 and I32 give 4, I16 gives 2; any other format is rejected |
| Session.New | resample.go:45-89 | each validation error happens exactly when its check is the first to fail; a soxr_create error text is returned verbatim; on success the record stores the handle, both rates, the channel count and the bytes per sample from the table |
| Session.Close | resample.go:91-98 | on an open session: no error, and the session ends closed with nothing else changed; on a closed session: "soxr resampler is nil" and the session is unchanged |
| Session.NewChecked | resample.go:51-53 | the corrected channel check: "Invalid channels number" exactly when the rates are valid and channels < 1; a success always has channels >= 1 |
| GoInt.Quo | resample.go:111 | Go's integer `/`, truncating toward zero; its properties are in `GoInt.QuoBounds` |
| GoInt.Rem | resample.go:108 | Go's integer `%`, the remainder of `Quo`; its properties are in `GoInt.RemBounds` |
| GoInt.Trunc | resample.go:116 | Go's `int(x)` on a float, dropping the fraction; its properties are in `GoInt.TruncBounds` |
| Frames.Fragment | resample.go:108 | the trailing bytes `len(p) % (frameSize*channels)`; `Frames.Alignment` proves they are fewer than one frame |
| Frames.AlignedLen | resample.go:108-109 | the length of `p` once the fragment is cut off; `Frames.Alignment` proves it is a whole number of frames and at most `len(p)` |
| Frames.FramesIn | resample.go:111 | `len(p) / frameSize / channels` with Go's division; `Frames.Alignment` proves it counts exactly the whole frames |
| Frames.FramesOut | resample.go:116 | `int(float64(framesIn) * (outRate / inRate))` on exact rationals; `Frames.FramesOutFloor` proves it is the floor of the scaled count |
| Frames.Alignment | resample.go:108-115 | for either channel sign: the dropped fragment is smaller than one frame; the kept length is `framesIn*frameSize*channels`; `framesIn == 0` iff the input is shorter than one frame; for positive channels the fragment is `len mod stride` and `framesIn = len div stride`; for negative channels `framesIn <= 0` |
| Frames.FramesOutFloor | resample.go:116-120 | for `framesIn >= 0`, `framesOut` is the floor of `framesIn*outRate/inRate`, and it is 0 iff `framesIn*outRate < inRate`; a negative `framesIn` gives `framesOut <= 0` |
| Engine.Allocate | resample.go:122 | the `framesOut`-frame buffer from `C.malloc`: it has `framesOut` frames and no engine call has written any of them |
| Engine.FillFromStart | resample.go:126 | a process call writes its `n` frames at the start of `dataOut`: afterwards every frame is still unwritten or holds frame `i` of some call up to this one, and the frames from `n` on are unchanged |
| Engine.Fill | resample.go:126-134 | soxr_process writing `n` frames of one call from frame `offset` on, leaving the rest of the buffer as it was; its length is kept |
| Engine.CopyOut | resample.go:144 | C.GoBytes copies exactly `done` frames, reading past the end of `dataOut` when `done` exceeds it |
| Streaming.Loop | resample.go:124-142 | every call the loop adds is the same process request, with at most one flush last; a pass calls the engine iff fuel is left; an error carries the failing (last) call's soxr text. When it stops, flushes or goes round again is stated by `WriteFacts.LoopPasses` |
| Streaming.LoopDelivers | resample.go:124-144 | a run that ends without error returns what `Delivered` describes, in terms of the engine's replies. Without a flush, the last process call wrote all `framesOut` frames, and those are the output. With a flush, the output is `d1 + d2` frames, where `d1` is what the last process call wrote and `d2` what the flush wrote. As written: frames below `d2` are the flush's, frames from `d2` below `d1` are the last process call's, frames at or past both `d1` and `d2` but inside the allocation were never written or hold the same frame of an earlier pass, and frames from `framesOut` on lie past the allocation. Corrected: the process call's `d1` frames, then the flush's `d2` |
| Streaming.Reported | resample.go:127-150 | how the loop's end becomes `Write`'s result: an error result exactly when the loop failed, and then no frames and the soxr text as the error; a result without error exactly when the loop finished, and not yet returned exactly when it ran out of passes; the engine calls are kept |
| Streaming.FlushDelivers | resample.go:131-144 | after a process call that read all input but wrote `d1 < framesOut` frames, and a flush that wrote `d2`, `d1 + d2` frames come back. As written: the flush's frames first, then the process call's frames `d2` up to `d1`, frames at or past both `d1` and `d2` but inside the allocation were never written or hold the same frame of an earlier pass, and every frame from `framesOut` on lies past the allocation. Corrected: the process call's `d1` frames, then the flush's `d2` |
| Streaming.PassOfFacts | resample.go:108-122 | the pass handed to the engine holds whole frames only (`framesIn * stride` bytes), and its `framesOut` is the floor of `framesIn*outRate/inRate` |
| Streaming.Admit | resample.go:100-125 | whenever the checks let the loop start, `framesOut` is positive (a negative count skips the loop) |
| Streaming.ReachesLoop | resample.go:100-125 | an open session gets past the checks exactly when the input is engaged (positive channels, at least one frame, enough frames for one output frame), and then runs the pass `PassOf` describes: the input cut to `len - len mod stride`, `len div stride` frames in |
| Streaming.AllocatedBytes | resample.go:122 | the bytes `C.malloc` reserves, `framesOut * channels * frameSize`; `WriteFacts.CorrectedFitsAllocation` and `WriteFacts.AsWrittenCopyBound` compare them with the bytes copied out |
| Streaming.CopiedBytes | resample.go:144 | the bytes `C.GoBytes` copies, `done * channels * frameSize`; compared with the allocation by the same two lemmas |
| Streaming.Outcome | resample.go:100-151 | every error returns no frames |
| Streaming.Write | resample.go:100-151 | the Go function, check by check and agreeing with it on every path (a negative `framesOut` returns at once with the result Go reaches by skipping the loop), equals `Outcome(AsWritten, …)`; on a closed session it returns the nil-handle error; empty input returns no frames and no error without calling the engine |
| Streaming.Drive | resample.go:121-144 | the imperative loop, with `done` overwritten on every pass and the flush at the start of `dataOut`, equals `Loop(AsWritten, …)` |
| WriteFacts.EngineCalledIff | resample.go:100-126 | an open session calls the engine iff the input is engaged and fuel allows a pass; otherwise it returns no frames; the only calls are the aligned process request, plus at most one final flush |
| WriteFacts.TooLittleInput | resample.go:111-120 | for positive channels: "Incomplete input frame data" iff the input is shorter than one frame; "Not enough input…" iff the whole frames times outRate fall below inRate; neither calls the engine |
| WriteFacts.AdmitIncomplete | resample.go:108-114 | for positive channels and non-empty input, the checks stop with "Incomplete input frame data" iff the input is shorter than one frame |
| WriteFacts.AdmitNotEnough | resample.go:111-120 | for positive channels and non-empty input, the checks stop with "Not enough input…" iff there is a whole frame but the whole frames times outRate fall below inRate |
| WriteFacts.NegativeChannelsWrite | resample.go:108-125 | with negative channels, `Write` returns no frames and never calls the engine; with `stride = abs(frameSize*channels)`, the error is "Incomplete input frame data" iff `0 < len(p) < stride`, and "Not enough input…" iff `len(p) >= stride` and `len(p) div stride` frames times outRate fall below inRate |
| WriteFacts.NegativeChannelsChecks | resample.go:108-120 | the same two iffs for the checks before the loop |
| WriteFacts.NegativeFrames | resample.go:108-120 | for a negative channel count, `framesIn == 0` iff the input is shorter than one frame, and otherwise `framesOut == 0` iff `len div stride` frames times outRate fall below inRate |
| WriteFacts.FramesOutNegated | resample.go:116 | the frame-count conversion of a negated `framesIn` is the negated count |
| GoInt.TruncNegated | resample.go:116 | Go's float-to-int conversion is odd: `int(-x) == -int(x)` |
| WriteFacts.WriteDelivers | resample.go:125-150 | on engaged input and for every conforming engine, success returns what `Delivered` describes: `done` frames in total, with `done` the sum of the engine's reported counts for the last process call and the flush, and the slot order that `Streaming.LoopDelivers` states. Failure returns no frames and the failing call's soxr text |
| WriteFacts.WriteErrors | resample.go:126-139 | on engaged input, an engine call replies with a soxr error iff it is the last call and `Write` returned an error: every call before a failure succeeded, and a `Write` without error saw no failing call. If the first process call fails, `Write` returns that text, no frames, and makes no other call |
| WriteFacts.LoopPasses | resample.go:125-142 | from any call history, the loop's first call is the process request; after a pass that is followed by another call, that pass had no error and wrote fewer than `framesOut` frames, and the next call is a process call exactly when the pass read less than `framesIn`, and the flush exactly when it read all of it; a loop that ends without error on a process call ends because that call wrote every frame; a loop out of passes was last sent round by a pass that fell short |
| WriteFacts.WritePasses | resample.go:125-142 | the same at the level of `Write` on engaged input: the first call is the process request; a pass followed by another did not fill the output, and was followed by the process request again iff it read less than `framesIn` and by the flush iff it read all of it; a `Write` that returns without error after a process call does so because that call wrote every frame; an unfinished `Write` was last sent round by a pass that fell short |
| WriteFacts.LoopErrors | resample.go:125-142 | the same iff for the loop from any call history, and a failing first call of a pass ends the loop with exactly that call |
| WriteFacts.CorrectedDeliveryFits | resample.go:122-144 | a corrected delivery holds at most `framesOut` frames, each written by the engine |
| WriteFacts.AsWrittenDeliveryBound | resample.go:122-144 | an as-written delivery holds fewer than `2 * framesOut` frames, and exactly `framesOut` when the last call was a process call |
| WriteFacts.CorrectedFitsAllocation | resample.go:122-144 | with the corrected flush, the bytes copied out never exceed the bytes allocated, and every frame copied out was written by the engine |
| WriteFacts.AsWrittenCopyBound | resample.go:122-144 | as written, the bytes copied out are less than twice the bytes allocated; they equal the allocation when no flush happened |
| WriteFacts.FuelOnlyBounds | resample.go:125-142 | once `Write` has returned within some number of passes, more passes give the same result |
| WriteFacts.LoopFuelMonotone | resample.go:125-142 | the same statement for the loop, from any call history |
| WriteFacts.EagerEngineReturns | resample.go:125-142 | if every process call reads all the input, `Write` returns after one pass, with one or two engine calls |
| WriteFacts.StallingEngineHangs | resample.go:125-142 | an engine that always reads and writes nothing (a conforming one) keeps `Write` from returning for any fuel, with one identical process call per pass |
| WriteFacts.StallLoop | resample.go:125-142 | the same statement for the loop, from any call history |
| Lifecycle.Run | resample.go:91-104 | over any sequence of calls, the session changes at most by losing its handle |
| Lifecycle.ClosedRejectsAll | resample.go:91-104 | a closed session stays unchanged; every later `Close` fails with "soxr resampler is nil"; every later `Write` fails with that error too, with no frames and no engine call |
| Lifecycle.CloseSucceedsOnce | resample.go:91-98 | from an open session, exactly one `Close` succeeds if the sequence has any; the session ends open iff no `Close` was called |
| Scenarios.Mono16Pass | ykresample.go:33-39 | for the drivers' session, `n >= 12` bytes reach the engine as `n div 2` frames in and `n div 12` frames out |
| Scenarios.OneSecondDownsampled | ykresample.go:33-39 | the drivers' 48 kHz to 8 kHz mono I16 session: 96000 bytes give 48000 frames in and 8000 frames out; a fully delivering engine returns 16000 bytes from one call |
| Scenarios.OneByteIsIncomplete | resample.go:108-114 | one byte of 16-bit mono is "Incomplete input frame data" and calls no engine |
| Scenarios.RefusedSettings | resample.go:51-56 | zero channels and quality 7 are refused with their own errors |
| Findings.FlushOverrunsAllocation | resample.go:122-144 | a concrete conforming engine makes the as-written `Write` copy 6 bytes out of a 4-byte allocation |
| Findings.FlushScramblesOutput | resample.go:126-144 | a concrete conforming engine makes the as-written `Write` return the flush frame, then a stale process frame, then an unwritten frame |
| Findings.CorrectedFlushOnSameEngines | resample.go:131-140 | on the same two engines, the corrected flush returns the process frames followed by the flush frames |
| Findings.NegativeChannelsAccepted | resample.go:51-53 | `New` accepts channels = -1; `NewChecked` refuses it |

## Left out

- The filtering itself (`soxr_create`, the work inside `soxr_process`, `soxr_delete`). soxr is a foreign library. The result of `soxr_create` is a parameter of `New` (the handle and the error text). Each call's reply to `soxr_process` comes from the abstract engine.
- C memory management (`C.CBytes`, `C.malloc`, `C.free`, `C.GoString`). Only the sizes are kept: `Streaming.AllocatedBytes` and `Streaming.CopiedBytes`.
- The `threads` global, `runtime.NumCPU()` and `soxr_runtime_spec`. They configure host parallelism and have no observable contract.
- Float64 arithmetic. Rates are exact rationals, so `int(float64(framesIn) * (outRate/inRate))` can differ by one from the model at exact boundaries. NaN and infinite rates are not modelled. NaN would pass the `<= 0` check.
- Go's 64-bit `int` and C's `size_t`/`uint` widths. The model's integers are unbounded, so these are not modelled:
  - overflow of `frameSize*channels` and `framesOut*channels*frameSize`;
  - the conversion of a negative channel count to `C.uint` in `soxr_create`.
- Engine state carried across calls. Each `Write` gets its own engine behaviour (`Engine.Engine`, indexed by the call's ordinal within that `Write`), so continuity of the audio across writes is not stated.
- The loop's termination. It is observed through fuel, and `Unfinished` marks a `Write` that has not returned within the given number of passes.
- The nil `*Resampler` that `New` returns with every error (resample.go:49-77). Calling `Close` or `Write` on it dereferences nil at resample.go:92 and :101 and panics; it does not return "soxr resampler is nil". The model's `New` returns `Failure` with no record, so there is nothing to call them on. The nil-handle error is modelled only for a session whose handle `Close` has cleared.
- Go's nil slice versus empty slice. Both are the empty sequence.
- The audio content and the quality of the resampled signal.
- ykresample.go and ykresample1.go. They are file-I/O and logging drivers (`main` functions), and ykresample1.go:22 takes three results from the two-result `Write`. Only their session configuration appears, in `Scenarios.OneSecondDownsampled`.
- Streaming.CopiedBytes: the byte count is unbounded here, while resample.go:144 passes it to `C.GoBytes` as a 32-bit `C.int`, which wraps for more than 2^31-1 bytes; the model does not state that wrap-around.
- Engine.CopyOut: its own contract states only the number of frames copied. That the frames past the allocation read as `BeyondAllocation` is stated through `Streaming.Delivered` and the findings.

## Findings

| source | as written | input that shows it | evidently intended | confidence | as-written member | corrected member |
|---|---|---|---|---|---|---|
| resample.go:134-144 | the flush asks for `framesOut` frames again, then `done += d`, and `C.GoBytes` copies `done` frames | session 48 kHz to 8 kHz, mono, I16; 24 bytes, so 12 frames in and 2 out; the process call reads all and writes 1, the flush writes 2; `done` = 3, so 6 bytes are copied from a 4-byte buffer | the flush asks for `framesOut - done`, so `done <= framesOut` | high, not executed | Findings.FlushOverrunsAllocation | WriteFacts.CorrectedFitsAllocation |
| resample.go:134-139 | the flush writes from the start of `dataOut`, over the frames the process call produced (for every engine, `WriteFacts.WriteDelivers` states the slot order) | same session; 36 bytes, so 18 frames in and 3 out; the process call writes 2, the flush writes 1; the output is the flush frame, a stale process frame, then an unwritten frame | the flush writes at `dataOut + done`, so the output is the process frames followed by the flush frames | high, not executed | Findings.FlushScramblesOutput | WriteFacts.WriteDelivers |
| resample.go:51-53 | only `channels == 0` is rejected | `New(48000, 8000, -1, I16, VeryHighQ)` succeeds, and soxr_create is then handed -1 as an unsigned count | channel counts below 1 are "Invalid channels number" | medium, not executed | Findings.NegativeChannelsAccepted | Session.NewChecked |

=== FILE: engine.dfy ===
/**
  soxr as an abstract engine. `Write` talks to it only through soxr_process; what
  the engine does with the audio is not modelled, only how many frames it reads and
  writes and where in the output buffer those frames land.
 */
module Engine {
  import opened Session

  /** One soxr_process call as `Write` issues it. */
  datatype Request =
    | Process(input: seq<byte>, frames: nat, capacity: nat)   // in = dataIn, ilen = framesIn
    | Flush(capacity: nat)                                     // in = NULL: end of input
  {
    function InputFrames(): nat {
      if Process? then frames else 0
    }
  }

  /** What soxr_process reports: frames read (idone), frames written (odone), error text. */
  datatype Reply = Reply(read: nat, done: nat, err: string)

  /**
    The engine's behaviour during one `Write`: its reply to the k-th call (from 0)
    it receives there. Its internal state is hidden in the dependence on k.
   */
  type Engine = (nat, Request) -> Reply

  /** soxr never reports more frames read than offered, nor more written than asked for. */
  predicate Fits(q: Request, a: Reply) {
    a.read <= q.InputFrames() && a.done <= q.capacity
  }

  ghost predicate Conforming(e: Engine) {
    forall k: nat, q: Request :: Fits(q, e(k, q))
  }

  /**
    A frame-sized slot of the C output buffer `dataOut`, or of what C.GoBytes copies
    out of it: never written, written as frame `pos` of engine call `call`, or lying
    past the end of the allocation.
   */
  datatype Slot = Uninitialized | Emitted(call: nat, pos: nat) | BeyondAllocation

  /** A freshly malloc'ed buffer of `frames` frames: nothing an engine call wrote is in it. */
  function Allocate(frames: nat): (r: seq<Slot>)
    ensures |r| == frames && WrittenBefore(r, 0)
  {
    seq(frames, _ => Uninitialized)
  }

  /**
    What the output buffer can hold before engine call `k` of a `Write`: each slot is
    unwritten, or holds frame `i` of an earlier call at slot `i`, since every process
    call writes from the start of the buffer.
   */
  predicate WrittenBefore(buf: seq<Slot>, k: nat) {
    forall i | 0 <= i < |buf| ::
      buf[i] == Uninitialized || (buf[i].Emitted? && buf[i].call < k && buf[i].pos == i)
  }

  /** The engine writes `n` frames of call `call` starting at frame `offset`. */
  function Fill(buf: seq<Slot>, offset: nat, n: nat, call: nat): (r: seq<Slot>)
    requires offset + n <= |buf|
    ensures |r| == |buf|
  {
    seq(|buf|, i requires 0 <= i < |buf| =>
      if offset <= i < offset + n then Emitted(call, i - offset) else buf[i])
  }

  /**
    Call `k` writing `n` frames from the start of a buffer that holds only what earlier
    calls wrote: afterwards it holds only what calls up to `k` wrote, and the slots from
    `n` on are untouched.
   */
  lemma FillFromStart(buf: seq<Slot>, n: nat, k: nat)
    requires WrittenBefore(buf, k) && n <= |buf|
    ensures WrittenBefore(Fill(buf, 0, n, k), k + 1)
    ensures forall i | n <= i < |buf| :: Fill(buf, 0, n, k)[i] == buf[i]
  {
  }

  /** C.GoBytes of `count` frames from the start of the buffer, reading past its end if asked. */
  function CopyOut(buf: seq<Slot>, count: nat): (r: seq<Slot>)
    ensures |r| == count
  {
    seq(count, i requires 0 <= i < count => if i < |buf| then buf[i] else BeyondAllocation)
  }

  /** The `n` frames engine call `call` writes, in order. */
  function Produced(call: nat, n: nat): (r: seq<Slot>)
    ensures |r| == n
  {
    seq(n, i requires 0 <= i < n => Emitted(call, i))
  }
}

=== FILE: findings.dfy ===
/**
  Concrete engine behaviours on which resample.go misbehaves, and the same behaviours
  under the corrected flush and the corrected channel check.
 */
module Findings {
  import opened Wrappers
  import opened Session
  import opened Engine
  import opened Streaming
  import opened WriteFacts
  import opened Scenarios

  /**
    An engine whose process call reads everything but writes one frame fewer than
    asked, and whose end-of-input flush writes all it is asked for when `full`, and a
    single frame otherwise.
   */
  function ShortThenFlush(q: Request, full: bool): Reply {
    match q
    case Process(_, frames, cap) => Reply(frames, if cap > 0 then cap - 1 else 0, "")
    case Flush(cap) => Reply(0, if full || cap == 0 then cap else 1, "")
  }

  /** The flush writes as many frames as it is asked for. */
  function FullFlush(k: nat, q: Request): Reply {
    ShortThenFlush(q, true)
  }

  /** The flush writes a single frame. */
  function OneFrameFlush(k: nat, q: Request): Reply {
    ShortThenFlush(q, false)
  }

  /**
    12 input frames give framesOut = 2 and a 4-byte `dataOut`. The process call writes
    one frame, the flush is asked for 2 again and writes 2 over the start of the buffer,
    so `done` = 3 and C.GoBytes copies 6 bytes: the last frame lies past the allocation,
    and the frame of the process call is lost.
   */
  lemma FlushOverrunsAllocation()
    ensures Conforming(FullFlush)
    ensures var r := Mono16();
      var p := Silence(24);
      && Engaged(r, p)
      && PassOf(r, p).framesOut == 2
      && AllocatedBytes(r, PassOf(r, p)) == 4
      && Outcome(AsWritten, r, p, FullFlush, 1)
         == Returned([Emitted(1, 0), Emitted(1, 1), BeyondAllocation], None,
                     [ProcessRequest(PassOf(r, p)), Flush(2)])
      && CopiedBytes(r, Outcome(AsWritten, r, p, FullFlush, 1).out) == 6
  {
    var r := Mono16();
    var p := Silence(24);
    Mono16Pass(24);
    ReachesLoop(r, p);
    FullFlushAsWritten(PassOf(r, p));
  }

  lemma FullFlushAsWritten(c: Pass)
    requires 0 < c.framesIn && c.framesOut == 2
    ensures Conforming(FullFlush)
    ensures Loop(AsWritten, FullFlush, c, [], Allocate(2), 1)
         == Done([Emitted(1, 0), Emitted(1, 1), BeyondAllocation], [ProcessRequest(c), Flush(2)])
  {
    var buf1 := Fill(Allocate(2), 0, 1, 0);
    assert buf1[0] == Emitted(0, 0) && buf1[1] == Uninitialized;
    assert buf1 == [Emitted(0, 0), Uninitialized];
    assert Fill(buf1, 0, 2, 1) == [Emitted(1, 0), Emitted(1, 1)];
    assert CopyOut([Emitted(1, 0), Emitted(1, 1)], 3) == [Emitted(1, 0), Emitted(1, 1), BeyondAllocation];
  }

  /**
    18 input frames give framesOut = 3. The process call writes 2 frames, the flush
    writes 1 over the first of them, and the 3 frames copied out are the flush's frame,
    a stale frame of the process call, and a frame nobody wrote.
   */
  lemma FlushScramblesOutput()
    ensures Conforming(OneFrameFlush)
    ensures var r := Mono16();
      var p := Silence(36);
      && Engaged(r, p)
      && PassOf(r, p).framesOut == 3
      && Outcome(AsWritten, r, p, OneFrameFlush, 1)
         == Returned([Emitted(1, 0), Emitted(0, 1), Uninitialized], None,
                     [ProcessRequest(PassOf(r, p)), Flush(3)])
  {
    var r := Mono16();
    var p := Silence(36);
    Mono16Pass(36);
    ReachesLoop(r, p);
    OneFrameAsWritten(PassOf(r, p));
  }

  lemma OneFrameAsWritten(c: Pass)
    requires 0 < c.framesIn && c.framesOut == 3
    ensures Conforming(OneFrameFlush)
    ensures Loop(AsWritten, OneFrameFlush, c, [], Allocate(3), 1)
         == Done([Emitted(1, 0), Emitted(0, 1), Uninitialized], [ProcessRequest(c), Flush(3)])
  {
    var buf1 := Fill(Allocate(3), 0, 2, 0);
    assert buf1 == [Emitted(0, 0), Emitted(0, 1), Uninitialized];
    assert Fill(buf1, 0, 1, 1) == [Emitted(1, 0), Emitted(0, 1), Uninitialized];
    assert CopyOut([Emitted(1, 0), Emitted(0, 1), Uninitialized], 3) == [Emitted(1, 0), Emitted(0, 1), Uninitialized];
  }

  /**
    The same two engines under the corrected flush: the flush is asked only for the
    missing frames, lands after those already written, and the output is the process
    call's frames followed by the flush's, within the allocation.
   */
  lemma CorrectedFlushOnSameEngines()
    ensures Conforming(FullFlush) && Conforming(OneFrameFlush)
    ensures var r := Mono16();
      && Outcome(Corrected, r, Silence(24), FullFlush, 1)
         == Returned([Emitted(0, 0), Emitted(1, 0)], None,
                     [ProcessRequest(PassOf(r, Silence(24))), Flush(1)])
      && Outcome(Corrected, r, Silence(36), OneFrameFlush, 1)
         == Returned([Emitted(0, 0), Emitted(0, 1), Emitted(1, 0)], None,
                     [ProcessRequest(PassOf(r, Silence(36))), Flush(1)])
  {
    var r := Mono16();
    Mono16Pass(24);
    Mono16Pass(36);
    ReachesLoop(r, Silence(24));
    ReachesLoop(r, Silence(36));
    FullFlushCorrected(PassOf(r, Silence(24)));
    OneFrameCorrected(PassOf(r, Silence(36)));
  }

  lemma FullFlushCorrected(c: Pass)
    requires 0 < c.framesIn && c.framesOut == 2
    ensures Conforming(FullFlush)
    ensures Loop(Corrected, FullFlush, c, [], Allocate(2), 1)
         == Done([Emitted(0, 0), Emitted(1, 0)], [ProcessRequest(c), Flush(1)])
  {
    var a := Fill(Allocate(2), 0, 1, 0);
    assert Fill(a, 1, 1, 1) == [Emitted(0, 0), Emitted(1, 0)];
    assert CopyOut([Emitted(0, 0), Emitted(1, 0)], 2) == [Emitted(0, 0), Emitted(1, 0)];
  }

  lemma OneFrameCorrected(c: Pass)
    requires 0 < c.framesIn && c.framesOut == 3
    ensures Conforming(OneFrameFlush)
    ensures Loop(Corrected, OneFrameFlush, c, [], Allocate(3), 1)
         == Done([Emitted(0, 0), Emitted(0, 1), Emitted(1, 0)], [ProcessRequest(c), Flush(1)])
  {
    var b := Fill(Allocate(3), 0, 2, 0);
    assert Fill(b, 2, 1, 1) == [Emitted(0, 0), Emitted(0, 1), Emitted(1, 0)];
    assert CopyOut([Emitted(0, 0), Emitted(0, 1), Emitted(1, 0)], 3) == [Emitted(0, 0), Emitted(0, 1), Emitted(1, 0)];
  }

  /**
    `New` accepts a channel count of -1 (only 0 is rejected), although soxr_create
    would be handed it as an unsigned count; the checked constructor refuses it.
   */
  lemma NegativeChannelsAccepted()
    ensures New(48000.0, 8000.0, -1, I16, VeryHighQ, Live(1), "").Success?
    ensures New(48000.0, 8000.0, -1, I16, VeryHighQ, Live(1), "").value.channels == -1
    ensures NewChecked(48000.0, 8000.0, -1, I16, VeryHighQ, Live(1), "") == Failure(InvalidChannels)
  {
  }
}

=== FILE: frames.dfy ===
/**
  The frame arithmetic at the start of `Write`: dropping the trailing fragment,
  counting whole input frames, and sizing the expected output.
 */
module Frames {
  import opened GoInt

  /** Bytes left over after the last whole frame: Go's `len(p) % (frameSize*channels)`. */
  function Fragment(n: nat, frameSize: int, channels: int): int
    requires frameSize * channels != 0
  {
    Rem(n, frameSize * channels)
  }

  /** The byte length kept once the fragment is cut off. */
  function AlignedLen(n: nat, frameSize: int, channels: int): int
    requires frameSize * channels != 0
  {
    n - Fragment(n, frameSize, channels)
  }

  /** Whole input frames: Go's `len(p) / frameSize / channels` on the aligned length. */
  function FramesIn(n: nat, frameSize: int, channels: int): int
    requires frameSize > 0 && channels != 0
  {
    Quo(Quo(AlignedLen(n, frameSize, channels), frameSize), channels)
  }

  /**
    Expected output frames: `int(float64(framesIn) * (outRate / inRate))`, with the
    rates exact rationals, so the product is truncated toward zero.
   */
  function FramesOut(framesIn: int, inRate: real, outRate: real): int
    requires inRate > 0.0
  {
    Trunc(framesIn as real * (outRate / inRate))
  }

  /**
    Alignment, for either sign of the channel count: what is dropped is less than one
    frame, what is kept is a whole number of frames, `FramesIn` counts exactly those
    frames, and it is zero exactly when the input is shorter than one frame.
   */
  lemma {:induction false} Alignment(n: nat, frameSize: int, channels: int)
    requires frameSize > 0 && channels != 0
    ensures var stride := Abs(frameSize * channels);
      && 0 <= Fragment(n, frameSize, channels) < stride
      && 0 <= AlignedLen(n, frameSize, channels) <= n
      && FramesIn(n, frameSize, channels) * frameSize * channels == AlignedLen(n, frameSize, channels)
      && (FramesIn(n, frameSize, channels) == 0 <==> n < stride)
    ensures channels > 0 ==>
      && Fragment(n, frameSize, channels) == n % (frameSize * channels)
      && FramesIn(n, frameSize, channels) == n / (frameSize * channels)
    ensures channels < 0 ==> FramesIn(n, frameSize, channels) <= 0
  {
    var stride := frameSize * channels;
    var q := FramesIn(n, frameSize, channels);
    var aligned := AlignedLen(n, frameSize, channels);
    FramesInIsQuotient(n, frameSize, channels);
    RemBounds(n, stride);
    if channels > 0 {
      QuoNonNegative(n, stride);
    } else {
      NonPositiveQuotient(n, stride);
    }
    ZeroQuotient(n, stride);
  }

  /** `FramesIn` is the single truncated quotient of the length by the frame stride. */
  lemma FramesInIsQuotient(n: nat, frameSize: int, channels: int)
    requires frameSize > 0 && channels != 0
    ensures FramesIn(n, frameSize, channels) == Quo(n, frameSize * channels)
    ensures AlignedLen(n, frameSize, channels) == Quo(n, frameSize * channels) * (frameSize * channels)
    ensures FramesIn(n, frameSize, channels) * frameSize * channels == AlignedLen(n, frameSize, channels)
  {
    var stride := frameSize * channels;
    var q := Quo(n, stride);
    var aligned := AlignedLen(n, frameSize, channels);
    assert aligned == q * stride;
    assert q * stride == (q * channels) * frameSize;
    QuoExact(aligned, frameSize, q * channels);
    QuoExact(q * channels, channels, q);
    Associate(q, frameSize, channels);
  }

  lemma Associate(q: int, a: int, b: int)
    ensures q * a * b == q * (a * b)
  {
  }

  lemma NonPositiveQuotient(n: nat, stride: int)
    requires stride < 0
    ensures Quo(n, stride) <= 0
  {
    NonNegativeDiv(Abs(n), Abs(stride));
  }

  lemma NonNegativeDiv(x: int, y: int)
    requires x >= 0 && y > 0
    ensures x / y >= 0
  {
  }

  lemma ZeroQuotient(n: nat, stride: int)
    requires stride != 0
    ensures Quo(n, stride) == 0 <==> n < Abs(stride)
  {
    var q := Quo(n, stride);
    QuoBounds(n, stride);
    if q != 0 {
      AbsProductAtLeast(q, stride);
      assert n - q * stride >= 0;
      assert n >= Abs(q * stride);
    }
  }

  /**
    For a positive frame count and positive rates, `FramesOut` is the floor of
    `framesIn * outRate / inRate`, and it is zero exactly when that product is below one.
    A negative frame count gives a count that is not positive.
   */
  lemma FramesOutFloor(framesIn: int, inRate: real, outRate: real)
    requires inRate > 0.0 && outRate > 0.0
    ensures var out := FramesOut(framesIn, inRate, outRate);
      framesIn >= 0 ==>
        && 0 <= out
        && out as real * inRate <= framesIn as real * outRate < (out + 1) as real * inRate
        && (out == 0 <==> framesIn as real * outRate < inRate)
    ensures framesIn < 0 ==> FramesOut(framesIn, inRate, outRate) <= 0
    ensures framesIn > 0 && FramesOut(framesIn, inRate, outRate) != 0 ==> FramesOut(framesIn, inRate, outRate) > 0
  {
    var x := framesIn as real * (outRate / inRate);
    var out := FramesOut(framesIn, inRate, outRate);
    Ratio(framesIn as real, outRate, inRate);
    TruncBounds(x);
    if framesIn >= 0 {
      FloorScaled(framesIn as real * outRate, x, inRate, out);
    }
  }

  /** From `n <= x < n + 1` and `x * i == y` with `i > 0`: `n * i <= y < (n + 1) * i`. */
  lemma FloorScaled(y: real, x: real, i: real, n: int)
    requires i > 0.0 && x * i == y && 0 <= n && n as real <= x < n as real + 1.0
    ensures n as real * i <= y < (n + 1) as real * i
    ensures n == 0 <==> y < i
  {
    var lo: real, hi: real := n as real, (n + 1) as real;
    MulMonotone(lo, x, i);
    MulMonotone(x, hi, i);
    ZeroBelowUnit(y, i, n, lo, hi);
  }

  lemma ZeroBelowUnit(y: real, i: real, n: int, lo: real, hi: real)
    requires i > 0.0 && 0 <= n && lo == n as real && hi == lo + 1.0
    requires lo * i <= y < hi * i
    ensures n == 0 <==> y < i
  {
    if n == 0 {
      UnitFactor(hi, i);
    } else {
      MulMonotone(1.0, lo, i);
      UnitFactor(1.0, i);
    }
  }

  lemma UnitFactor(a: real, i: real)
    requires a == 1.0
    ensures a * i == i
  {
  }

  lemma Ratio(f: real, o: real, i: real)
    requires i > 0.0 && o > 0.0
    ensures f * (o / i) * i == f * o
    ensures f < 0.0 ==> f * (o / i) < 0.0
    ensures f >= 0.0 ==> f * (o / i) >= 0.0
  {
    assert o / i > 0.0;
  }

  lemma MulMonotone(a: real, b: real, c: real)
    requires a <= b && c > 0.0
    ensures a * c <= b * c
    ensures a < b ==> a * c < b * c
  {
  }
}

=== FILE: goint.dfy ===
/**
  Go's integer and float-to-int semantics, written out because Dafny's `/` and `%`
  are Euclidean while Go's truncate toward zero.
 */
module GoInt {

  function Abs(x: int): nat {
    if x < 0 then -x else x
  }

  /** Go's `a / b` on `int`: the quotient truncated toward zero. */
  function Quo(a: int, b: int): int
    requires b != 0
  {
    var m := Abs(a) / Abs(b);
    if (a < 0) == (b < 0) then m else -m
  }

  /**
    What makes `Quo` Go's quotient: the remainder it leaves is smaller than the divisor
    in magnitude and has the sign of the dividend.
   */
  lemma QuoBounds(a: int, b: int)
    requires b != 0
    ensures var q := Quo(a, b);
      && Abs(a - q * b) < Abs(b)
      && (a >= 0 ==> a - q * b >= 0)
      && (a <= 0 ==> a - q * b <= 0)
  {
    QuoCases(a, b, Abs(a) / Abs(b), Quo(a, b));
  }

  lemma QuoCases(a: int, b: int, m: int, q: int)
    requires b != 0 && m == Abs(a) / Abs(b)
    requires q == if (a < 0) == (b < 0) then m else -m
    ensures Abs(a - q * b) < Abs(b)
    ensures a >= 0 ==> a - q * b >= 0
    ensures a <= 0 ==> a - q * b <= 0
  {
    var x: int, y: int := Abs(a), Abs(b);
    Euclid(x, y);
    MulNegations(m, y);
    var my := m * y;
    if a >= 0 && b > 0 {
      assert q * b == my;
    } else if a >= 0 {
      assert q * b == (-m) * (-y);
    } else if b > 0 {
      assert q * b == (-m) * y;
    } else {
      assert q * b == m * (-y);
    }
  }

  lemma Euclid(x: int, y: int)
    requires x >= 0 && y > 0
    ensures 0 <= x - (x / y) * y < y
  {
  }

  lemma MulNegations(m: int, y: int)
    ensures (-m) * (-y) == m * y
    ensures (-m) * y == -(m * y)
    ensures m * (-y) == -(m * y)
  {
  }

  /** Go's `a % b` on `int`: the remainder of the truncated quotient. */
  function Rem(a: int, b: int): int
    requires b != 0
  {
    a - b * Quo(a, b)
  }

  /** `Rem` is smaller than the divisor in magnitude, has the sign of `a`, and completes `Quo`. */
  lemma RemBounds(a: int, b: int)
    requires b != 0
    ensures var r := Rem(a, b);
      && Abs(r) < Abs(b)
      && (a >= 0 ==> 0 <= r)
      && (a <= 0 ==> r <= 0)
      && a == Quo(a, b) * b + r
  {
    QuoBounds(a, b);
    assert b * Quo(a, b) == Quo(a, b) * b;
  }

  /** Go's conversion `int(x)` of a float: the fractional part is dropped. */
  function Trunc(x: real): int {
    if x >= 0.0 then x.Floor else -((-x).Floor)
  }

  /** `Trunc` rounds toward zero: down for non-negative values, up for negative ones. */
  lemma TruncBounds(x: real)
    ensures var n := Trunc(x);
      && (0.0 <= x ==> 0 <= n && n as real <= x < n as real + 1.0)
      && (x < 0.0 ==> n <= 0 && n as real - 1.0 < x <= n as real)
  {
  }

  /** `Trunc` is odd: a value and its negation truncate to opposite integers. */
  lemma TruncNegated(x: real)
    ensures Trunc(-x) == -Trunc(x)
  {
    if x == 0.0 {
      assert -x == 0.0;
    }
  }

  /** A quotient that is exact is found by `Quo`, whatever the signs. */
  lemma QuoExact(a: int, b: int, q: int)
    requires b != 0 && a == q * b
    ensures Quo(a, b) == q
  {
    QuoBounds(a, b);
    UniqueQuotient(a, b, q, Quo(a, b));
  }

  lemma UniqueQuotient(a: int, b: int, q: int, q': int)
    requires b != 0 && a == q * b && Abs(a - q' * b) < Abs(b)
    ensures q' == q
  {
    var e := q - q';
    Distribute(q, q', b);
    assert a - q' * b == e * b;
    if e != 0 {
      AbsProductAtLeast(e, b);
    }
  }

  lemma Distribute(x: int, y: int, b: int)
    ensures x * b - y * b == (x - y) * b
  {
  }

  lemma AbsProductAtLeast(e: int, b: int)
    requires e != 0 && b != 0
    ensures Abs(e * b) >= Abs(b)
  {
    AbsOfProduct(e, b);
    AtLeastOnce(Abs(e), Abs(b));
  }

  lemma AbsOfProduct(e: int, b: int)
    ensures Abs(e * b) == Abs(e) * Abs(b)
  {
    if e >= 0 && b >= 0 {
      NonNegativeProduct(e, b);
    } else if e >= 0 {
      NonNegativeProduct(e, -b);
      assert e * b == -(e * -b);
    } else if b >= 0 {
      NonNegativeProduct(-e, b);
      assert e * b == -(-e * b);
    } else {
      NonNegativeProduct(-e, -b);
      assert e * b == -e * -b;
    }
  }

  lemma NonNegativeProduct(x: int, y: int)
    requires x >= 0 && y >= 0
    ensures x * y >= 0
  {
  }

  lemma AtLeastOnce(x: int, y: int)
    requires x >= 1 && y >= 1
    ensures x * y >= y
  {
    NonNegativeProduct(x - 1, y);
    assert x * y == (x - 1) * y + y;
  }

  /** For a non-negative dividend and a positive divisor Go and Dafny agree. */
  lemma QuoNonNegative(a: int, b: int)
    requires a >= 0 && b > 0
    ensures Quo(a, b) == a / b && Rem(a, b) == a % b
  {
  }
}

=== FILE: lifecycle.dfy ===
/**
  A session over a whole sequence of `Write` and `Close` calls: the handle is the
  only state the session itself keeps, and `Close` is the only thing that changes it.
 */
module Lifecycle {
  import opened Wrappers
  import opened Session
  import opened Engine
  import opened Streaming

  /** A call on the session; a `Write` comes with the engine's behaviour during it. */
  datatype Op = CloseOp | WriteOp(p: seq<byte>, engine: Engine, fuel: nat)

  /** What a call returned. */
  datatype Event = Closed(err: Option<Error>) | Wrote(res: WriteOutcome)

  ghost predicate Admissible(ops: seq<Op>) {
    forall i | 0 <= i < |ops| :: ops[i].WriteOp? ==> Conforming(ops[i].engine)
  }

  ghost predicate HasClose(ops: seq<Op>) {
    exists i | 0 <= i < |ops| :: ops[i].CloseOp?
  }

  /** Runs the calls in order; returns the final session and one event per call. */
  function Run(policy: Policy, r: Resampler, ops: seq<Op>): (res: (Resampler, seq<Event>))
    requires r.IsOpen() ==> Constructed(r)
    requires Admissible(ops)
    ensures |res.1| == |ops|
    ensures res.0 == r || res.0 == r.(handle := Nil)
    decreases |ops|
  {
    if |ops| == 0 then (r, [])
    else
      assert Admissible(ops[1..]) by {
        forall i | 0 <= i < |ops[1..]| ensures ops[1..][i].WriteOp? ==> Conforming(ops[1..][i].engine) {
          assert ops[1..][i] == ops[i + 1];
        }
      }
      match ops[0]
      case CloseOp =>
        var closed := Close(r);
        var rest := Run(policy, closed.0, ops[1..]);
        (rest.0, [Closed(closed.1)] + rest.1)
      case WriteOp(p, e, fuel) =>
        var rest := Run(policy, r, ops[1..]);
        (rest.0, [Wrote(Outcome(policy, r, p, e, fuel))] + rest.1)
  }

  /** How many calls were a `Close` that succeeded. */
  function CloseSuccesses(events: seq<Event>): nat {
    if |events| == 0 then 0
    else (if events[0] == Closed(None) then 1 else 0) + CloseSuccesses(events[1..])
  }

  /**
    A closed session stays exactly as it is, and every later call fails with
    "soxr resampler is nil": `Close` with that error alone, `Write` with no output and
    no engine call.
   */
  lemma {:induction false} ClosedRejectsAll(policy: Policy, r: Resampler, ops: seq<Op>)
    requires !r.IsOpen() && Admissible(ops)
    ensures var res := Run(policy, r, ops);
      && res.0 == r
      && CloseSuccesses(res.1) == 0
      && forall i | 0 <= i < |ops| ::
           res.1[i] == (if ops[i].CloseOp? then Closed(Some(NilResampler))
                        else Wrote(Returned([], Some(NilResampler), [])))
    decreases |ops|
  {
    if |ops| > 0 {
      var res := Run(policy, r, ops);
      ClosedRejectsAll(policy, r, ops[1..]);
      var rest := Run(policy, r, ops[1..]);
      assert res.1 == [res.1[0]] + rest.1;
      assert res.1[1..] == rest.1;
      forall i | 1 <= i < |ops|
        ensures res.1[i] == (if ops[i].CloseOp? then Closed(Some(NilResampler))
                             else Wrote(Returned([], Some(NilResampler), [])))
      {
        assert res.1[i] == rest.1[i - 1] && ops[i] == ops[1..][i - 1];
      }
    }
  }

  /**
    Starting open, exactly one `Close` succeeds if the sequence holds any `Close` at all
    (the first one), none otherwise, and the session ends open exactly when no `Close`
    was called.
   */
  lemma {:induction false} CloseSucceedsOnce(policy: Policy, r: Resampler, ops: seq<Op>)
    requires r.IsOpen() && Constructed(r) && Admissible(ops)
    ensures var res := Run(policy, r, ops);
      && CloseSuccesses(res.1) == (if HasClose(ops) then 1 else 0)
      && (res.0.IsOpen() <==> !HasClose(ops))
    decreases |ops|
  {
    if |ops| > 0 {
      match ops[0]
      case CloseOp =>
        ClosedRejectsAll(policy, Close(r).0, ops[1..]);
        assert HasClose(ops);
      case WriteOp(_, _, _) =>
        CloseSucceedsOnce(policy, r, ops[1..]);
        assert HasClose(ops) <==> HasClose(ops[1..]) by {
          if HasClose(ops) {
            var i :| 0 <= i < |ops| && ops[i].CloseOp?;
            assert ops[1..][i - 1] == ops[i];
          }
          if HasClose(ops[1..]) {
            var i :| 0 <= i < |ops[1..]| && ops[1..][i].CloseOp?;
            assert ops[i + 1] == ops[1..][i];
          }
        }
    }
  }
}

=== FILE: scenarios.dfy ===
/** The drivers' configuration and the documented example calls, worked through the model. */
module Scenarios {
  import opened Wrappers
  import opened Session
  import opened Frames
  import opened Engine
  import opened Streaming

  /** The session the drivers open: 48 kHz to 8 kHz, mono, 16-bit, very high quality. */
  function Mono16(): Resampler {
    Resampler(Live(1), 48000.0, 8000.0, 1, 2)
  }

  /** `n` bytes of silence. */
  function Silence(n: nat): seq<byte> {
    seq(n, _ => 0 as byte)
  }

  /**
    For the drivers' session every 2 bytes are a frame and every 6 input frames one
    output frame: `n` bytes reach the engine from 12 bytes on, as `n / 2` frames in
    and `n / 12` frames out.
   */
  lemma Mono16Pass(n: nat)
    requires n >= 12
    ensures Engaged(Mono16(), Silence(n))
    ensures PassOf(Mono16(), Silence(n)).framesIn == n / 2
    ensures PassOf(Mono16(), Silence(n)).framesOut == n / 12
  {
    var r, p := Mono16(), Silence(n);
    assert (n / 2) as real * 8000.0 >= 48000.0;
    var c := PassOf(r, p);
    PassOfFacts(r, p);
    assert c.framesIn == n / 2;
    assert c.framesOut as real * 48000.0 <= (n / 2) as real * 8000.0 < (c.framesOut + 1) as real * 48000.0;
    assert c.framesOut * 6 <= n / 2 < c.framesOut * 6 + 6;
  }

  /** An engine that reads all it is offered and writes all it is asked for. */
  function Complete(k: nat, q: Request): Reply {
    Reply(q.InputFrames(), q.capacity, "")
  }

  /**
    `New(48000, 8000, 1, I16, VeryHighQ)` gives the drivers' session; one second of
    input (96000 bytes, 48000 frames) asks for 8000 output frames, and an engine that
    delivers in full returns them from one process call, 16000 bytes.
   */
  lemma OneSecondDownsampled()
    ensures Conforming(Complete)
    ensures New(48000.0, 8000.0, 1, I16, VeryHighQ, Live(1), "") == Success(Mono16())
    ensures Engaged(Mono16(), Silence(96000))
    ensures PassOf(Mono16(), Silence(96000)).framesIn == 48000
    ensures PassOf(Mono16(), Silence(96000)).framesOut == 8000
    ensures Outcome(AsWritten, Mono16(), Silence(96000), Complete, 1)
         == Returned(Produced(0, 8000), None, [ProcessRequest(PassOf(Mono16(), Silence(96000)))])
    ensures CopiedBytes(Mono16(), Produced(0, 8000)) == 16000
  {
    var r := Mono16();
    var p := Silence(96000);
    Mono16Pass(96000);
    ReachesLoop(r, p);
    assert CopyOut(Fill(Allocate(8000), 0, 8000, 0), 8000) == Produced(0, 8000);
  }

  /** A single byte of 16-bit mono is less than a frame: "Incomplete input frame data". */
  lemma OneByteIsIncomplete(policy: Policy, e: Engine, fuel: nat)
    requires Conforming(e)
    ensures Outcome(policy, Mono16(), Silence(1), e, fuel) == Returned([], Some(IncompleteFrame), [])
  {
    assert FramesIn(1, 2, 1) == 0 by {
      Alignment(1, 2, 1);
    }
  }

  /** Zero channels and quality 7 are refused, whatever soxr would have said. */
  lemma RefusedSettings(created: Handle, soxErr: string)
    ensures New(48000.0, 8000.0, 0, I16, VeryHighQ, created, soxErr) == Failure(InvalidChannels)
    ensures New(48000.0, 8000.0, 1, I16, 7, created, soxErr) == Failure(InvalidQuality)
  {
  }
}

=== FILE: session.dfy ===
/**
  The resampler session record of resample.go: the quality and format constants,
  construction with its validation order, and the open/closed lifecycle.
 */
module Session {
  import opened Wrappers

  // Quality recipes handed to soxr_quality_spec.
  const Quick := 0      // cubic interpolation
  const LowQ := 1       // 16-bit with larger roll-off
  const MediumQ := 2    // 16-bit with medium roll-off
  const HighQ := 4
  const VeryHighQ := 6

  // Sample formats handed to soxr_io_spec (input and output use the same one).
  const F32 := 0        // 32-bit floating point
  const F64 := 1        // 64-bit floating point
  const I32 := 2        // 32-bit signed linear
  const I16 := 3        // 16-bit signed linear

  const ByteLen := 8    // bits per byte

  newtype byte = b: int | 0 <= b < 256

  /** The `soxr_t` handle a session holds: `Nil` plays the part of Go's nil pointer. */
  datatype Handle = Nil | Live(id: nat)

  /**
    A session. `frameSize` is, despite its name, the number of bytes of ONE sample;
    a frame of interleaved audio takes `frameSize * channels` bytes.
   */
  datatype Resampler = Resampler(
    handle: Handle,
    inRate: real,
    outRate: real,
    channels: int,
    frameSize: int)
  {
    predicate IsOpen() {
      handle.Live?
    }
  }

  /** The errors the session reports; `Soxr` carries a soxr error text verbatim. */
  datatype Error =
    | InvalidRates
    | InvalidChannels
    | InvalidQuality
    | InvalidFormat
    | Soxr(msg: string)
    | NilResampler
    | IncompleteFrame
    | NotEnoughInput

  /** The text of `err.Error()` for each error. */
  function Message(e: Error): (m: string)
    ensures e.Soxr? ==> m == e.msg
    ensures !e.Soxr? ==> |m| > 0
  {
    match e
    case InvalidRates => "Invalid input or output sampling rates"
    case InvalidChannels => "Invalid channels number"
    case InvalidQuality => "Invalid quality setting"
    case InvalidFormat => "Invalid format setting"
    case Soxr(msg) => msg
    case NilResampler => "soxr resampler is nil"
    case IncompleteFrame => "Incomplete input frame data"
    case NotEnoughInput => "Not enough input to generate output"
  }

  /**
    A caller can tell the session's own errors apart by their text: two of them have
    the same text exactly when they are the same error. None of these texts is "" or
    "0", the two texts that soxr uses to report success.
   */
  lemma MessageIdentifies(a: Error, b: Error)
    requires !a.Soxr? && !b.Soxr?
    ensures Message(a) == Message(b) <==> a == b
    ensures IsSoxrError(Message(a))
  {
  }

  /** soxr reports success with an empty error text or with the text "0". */
  predicate IsSoxrError(s: string) {
    s != "" && s != "0"
  }

  /** Bytes per sample for a format, or `None` for a format `New` rejects. */
  function SampleBytes(format: int): (size: Option<int>)
    ensures size.Some? <==> format in {F32, F64, I32, I16}
    ensures format == F64 ==> size == Some(8)
    ensures format == F32 || format == I32 ==> size == Some(4)
    ensures format == I16 ==> size == Some(2)
  {
    if format == F64 then Some(64 / ByteLen)
    else if format == F32 || format == I32 then Some(32 / ByteLen)
    else if format == I16 then Some(16 / ByteLen)
    else None
  }

  /** What every session `New` hands out satisfies; `Write` relies on it. */
  predicate Constructed(r: Resampler) {
    && r.inRate > 0.0
    && r.outRate > 0.0
    && r.channels != 0
    && r.frameSize in {2, 4, 8}
  }

  /**
    `New(inputRate, outputRate, channels, format, quality)`. The checks run in a fixed
    order and the first that fails decides the error. Only then is soxr_create called;
    `created` and `soxErr` are the handle and the error text it gives back.
   */
  function New(inputRate: real, outputRate: real, channels: int, format: int, quality: int,
               created: Handle, soxErr: string): (res: Result<Resampler, Error>)
    ensures res == Failure(InvalidRates) <==> inputRate <= 0.0 || outputRate <= 0.0
    ensures res == Failure(InvalidChannels)
        <==> inputRate > 0.0 && outputRate > 0.0 && channels == 0
    ensures res == Failure(InvalidQuality)
        <==> inputRate > 0.0 && outputRate > 0.0 && channels != 0 && !(0 <= quality <= 6)
    ensures res == Failure(InvalidFormat)
        <==> inputRate > 0.0 && outputRate > 0.0 && channels != 0 && 0 <= quality <= 6
             && !(0 <= format <= 3)
    ensures res == Failure(Soxr(soxErr))
        <==> Accepted(inputRate, outputRate, channels, format, quality) && IsSoxrError(soxErr)
    ensures res.Success?
        <==> Accepted(inputRate, outputRate, channels, format, quality) && !IsSoxrError(soxErr)
    ensures res.Success? ==>
      && res.value.handle == created
      && res.value.inRate == inputRate
      && res.value.outRate == outputRate
      && res.value.channels == channels
      && res.value.frameSize == (if format == F64 then 8 else if format == I16 then 2 else 4)
      && Constructed(res.value)
  {
    if inputRate <= 0.0 || outputRate <= 0.0 then Failure(InvalidRates)
    else if channels == 0 then Failure(InvalidChannels)
    else if quality < 0 || quality > 6 then Failure(InvalidQuality)
    else
      match SampleBytes(format)
      case None => Failure(InvalidFormat)
      case Some(size) =>
        if IsSoxrError(soxErr) then Failure(Soxr(soxErr))
        else Success(Resampler(created, inputRate, outputRate, channels, size))
  }

  /** All four validation checks of `New` pass. */
  predicate Accepted(inputRate: real, outputRate: real, channels: int, format: int, quality: int) {
    inputRate > 0.0 && outputRate > 0.0 && channels != 0 && 0 <= quality <= 6 && 0 <= format <= 3
  }

  /** `Close`: releases the handle of an open session; on a closed one it reports an error. */
  function Close(r: Resampler): (res: (Resampler, Option<Error>))
    ensures r.IsOpen() ==> res.1 == None && !res.0.IsOpen()
    ensures r.IsOpen() ==> res.0 == r.(handle := Nil)
    ensures !r.IsOpen() ==> res.0 == r && res.1 == Some(NilResampler)
  {
    if r.handle.Nil? then (r, Some(NilResampler))
    else (r.(handle := Nil), None)
  }

  /**
    `New` with the channel check its error text promises: a channel count below one is
    "Invalid channels number". Otherwise it behaves as `New`.
   */
  function NewChecked(inputRate: real, outputRate: real, channels: int, format: int, quality: int,
                      created: Handle, soxErr: string): (res: Result<Resampler, Error>)
    ensures res == Failure(InvalidChannels) <==> inputRate > 0.0 && outputRate > 0.0 && channels < 1
    ensures channels >= 1 ==> res == New(inputRate, outputRate, channels, format, quality, created, soxErr)
    ensures res.Success? ==> res.value.channels >= 1 && Constructed(res.value)
  {
    if inputRate > 0.0 && outputRate > 0.0 && channels < 0 then Failure(InvalidChannels)
    else New(inputRate, outputRate, channels, format, quality, created, soxErr)
  }
}

=== FILE: streaming.dfy ===
/**
  `Write` of resample.go: the checks and frame arithmetic, then the loop that drives
  soxr_process, with its end-of-input flush, and the bytes copied back to the caller.
 */
module Streaming {
  import opened Wrappers
  import opened GoInt
  import opened Session
  import opened Frames
  import opened Engine

  /**
    How the end-of-input flush is issued. `AsWritten` is resample.go: it asks for
    `framesOut` frames and lets them land at the start of `dataOut`. `Corrected` asks
    for the `framesOut - done` frames still missing and puts them after the `done`
    frames already there.
   */
  datatype Policy = AsWritten | Corrected

  /** What one `Write` fixes before it drives the engine. */
  datatype Pass = Pass(input: seq<byte>, framesIn: nat, framesOut: nat)

  /** How a call of `Write` ends; `Unfinished` means it has not returned within the fuel. */
  datatype WriteOutcome =
    | Returned(out: seq<Slot>, err: Option<Error>, calls: seq<Request>)
    | Unfinished(calls: seq<Request>)

  /** How the engine-driving loop ends. */
  datatype LoopOutcome =
    | Done(out: seq<Slot>, calls: seq<Request>)
    | Failed(msg: string, calls: seq<Request>)
    | OutOfFuel(calls: seq<Request>)

  function ProcessRequest(c: Pass): Request {
    Process(c.input, c.framesIn, c.framesOut)
  }

  function FlushRequest(policy: Policy, c: Pass, done: nat): Request
    requires done < c.framesOut
  {
    match policy
    case AsWritten => Flush(c.framesOut)
    case Corrected => Flush(c.framesOut - done)
  }

  function FlushOffset(policy: Policy, done: nat): nat {
    match policy
    case AsWritten => 0
    case Corrected => done
  }

  /**
    The frames a loop that ended without error hands back, judged by its last call and
    by what the engine reported. After a process call: that call wrote all `framesOut`
    frames, and they are the output. After a flush, the call before it is the process
    request, which read all input but wrote `d1 < framesOut` frames; the flush wrote
    `d2`, and `d1 + d2` frames are copied out. Issued as written, the flush is asked for
    `framesOut` again and lands at the start of the buffer: the first `d2` frames are the
    flush's, frames `d2` up to `d1` are what is left of the process call's, the frames
    after both within the allocation were never written or are stale frames of an
    earlier pass, and every frame from `framesOut` on lies past the allocation. Corrected, it is asked for the
    `framesOut - d1` missing frames, and the output is the process call's `d1` frames
    followed by the flush's `d2`.
   */
  ghost predicate Delivered(policy: Policy, e: Engine, c: Pass, calls: seq<Request>, out: seq<Slot>) {
    && |calls| >= 1
    && var last := |calls| - 1;
       var d2 := e(last, calls[last]).done;
       match calls[last]
       case Process(_, _, _) =>
         && calls[last] == ProcessRequest(c)
         && d2 == c.framesOut
         && out == Produced(last, c.framesOut)
       case Flush(cap) =>
         && last >= 1
         && calls[last - 1] == ProcessRequest(c)
         && var a := e(last - 1, calls[last - 1]);
            var d1 := a.done;
            && a.read == c.framesIn
            && d1 < c.framesOut
            && calls[last] == FlushRequest(policy, c, d1)
            && |out| == d1 + d2
            && match policy
               case AsWritten =>
                 && (forall i | 0 <= i < d2 :: out[i] == Emitted(last, i))
                 && (forall i | d2 <= i < d1 :: out[i] == Emitted(last - 1, i))
                 && (forall i | d1 <= i && d2 <= i && i < |out| && i < c.framesOut ::
                       out[i] == Uninitialized || (out[i].Emitted? && out[i].call < last - 1 && out[i].pos == i))
                 && (forall i | c.framesOut <= i < |out| :: out[i] == BeyondAllocation)
               case Corrected =>
                 out == Produced(last - 1, d1) + Produced(last, d2)
  }

  /** After this process reply `for int(done) < framesOut` ends: the engine wrote every frame. */
  predicate Stops(c: Pass, a: Reply) {
    a.done >= c.framesOut
  }

  /** After this process reply the loop flushes: all input was read but frames are missing. */
  predicate Flushes(c: Pass, a: Reply) {
    a.read == c.framesIn && a.done < c.framesOut
  }

  /** After this process reply the loop goes round again: input is left and frames are missing. */
  predicate FellShort(c: Pass, a: Reply) {
    a.read != c.framesIn && a.done < c.framesOut
  }

  /** The calls a loop adds to `calls`: repeats of the process request, at most one flush last. */
  ghost predicate Extends(c: Pass, calls: seq<Request>, after: seq<Request>) {
    && |calls| <= |after|
    && after[..|calls|] == calls
    && forall i | |calls| <= i < |after| ::
         after[i] == ProcessRequest(c) || (i == |after| - 1 && after[i].Flush?)
  }

  /**
    The `for int(done) < framesOut` loop, one pass per unit of fuel. Every pass resubmits
    the same `dataIn` and `framesIn` and overwrites `done`; a pass that read all input
    but fell short is followed by the end-of-input flush, and the loop stops there.
   */
  function Loop(policy: Policy, e: Engine, c: Pass, calls: seq<Request>, buf: seq<Slot>, fuel: nat)
    : (res: LoopOutcome)
    requires Conforming(e)
    requires 0 < c.framesOut == |buf| && WrittenBefore(buf, |calls|)
    ensures Extends(c, calls, res.calls)
    ensures |res.calls| > |calls| <==> fuel > 0
    ensures res.Failed? ==>
      && |res.calls| > 0
      && IsSoxrError(res.msg)
      && res.msg == e(|res.calls| - 1, res.calls[|res.calls| - 1]).err
    decreases fuel
  {
    if fuel == 0 then OutOfFuel(calls)
    else
      var q := ProcessRequest(c);
      var a := e(|calls|, q);
      var calls1 := calls + [q];
      assert Fits(q, a);
      ExtendsByOne(c, calls, q);
      if IsSoxrError(a.err) then Failed(a.err, calls1)
      else
        var buf1 := Fill(buf, 0, a.done, |calls|);
        FillFromStart(buf, a.done, |calls|);
        if Flushes(c, a) then
          var fq := FlushRequest(policy, c, a.done);
          var f := e(|calls1|, fq);
          assert Fits(fq, f);
          var calls2 := calls1 + [fq];
          ExtendsByFlush(c, calls, fq);
          if IsSoxrError(f.err) then Failed(f.err, calls2)
          else
            Done(CopyOut(Fill(buf1, FlushOffset(policy, a.done), f.done, |calls1|), a.done + f.done), calls2)
        else if !Stops(c, a) then
          var res := Loop(policy, e, c, calls1, buf1, fuel - 1);
          ExtendsThrough(c, calls, res.calls);
          res
        else
          Done(CopyOut(buf1, a.done), calls1)
  }

  /** A loop that ends without error hands back what `Delivered` describes. */
  lemma {:induction false} LoopDelivers(policy: Policy, e: Engine, c: Pass, calls: seq<Request>,
                                        buf: seq<Slot>, fuel: nat)
    requires Conforming(e)
    requires 0 < c.framesOut == |buf| && WrittenBefore(buf, |calls|)
    ensures var res := Loop(policy, e, c, calls, buf, fuel);
      res.Done? ==> Delivered(policy, e, c, res.calls, res.out)
    decreases fuel
  {
    if fuel > 0 {
      var q := ProcessRequest(c);
      var a := e(|calls|, q);
      assert Fits(q, a);
      if !IsSoxrError(a.err) {
        if Flushes(c, a) {
          FlushPassDelivers(policy, e, c, calls, buf, fuel);
        } else if !Stops(c, a) {
          var buf1 := Fill(buf, 0, a.done, |calls|);
          FillFromStart(buf, a.done, |calls|);
          assert Loop(policy, e, c, calls, buf, fuel) == Loop(policy, e, c, calls + [q], buf1, fuel - 1);
          LoopDelivers(policy, e, c, calls + [q], buf1, fuel - 1);
        } else {
          FullPassDelivers(policy, e, c, calls, buf, fuel);
        }
      }
    }
  }

  /** A pass that wrote every frame ends the loop with those frames. */
  lemma FullPassDelivers(policy: Policy, e: Engine, c: Pass, calls: seq<Request>, buf: seq<Slot>, fuel: nat)
    requires Conforming(e)
    requires 0 < c.framesOut == |buf| && WrittenBefore(buf, |calls|) && fuel > 0
    requires var a := e(|calls|, ProcessRequest(c)); !IsSoxrError(a.err) && Stops(c, a)
    ensures var res := Loop(policy, e, c, calls, buf, fuel);
      res.Done? ==> Delivered(policy, e, c, res.calls, res.out)
  {
    var q := ProcessRequest(c);
    var a := e(|calls|, q);
    assert Fits(q, a);
    var buf1 := Fill(buf, 0, a.done, |calls|);
    var res := Loop(policy, e, c, calls, buf, fuel);
    assert res == Done(CopyOut(buf1, a.done), calls + [q]);
    assert CopyOut(buf1, a.done) == Produced(|calls|, c.framesOut);
    assert res.calls[|calls|] == q;
  }

  /** A pass that read all input but fell short ends the loop with the flush. */
  lemma FlushPassDelivers(policy: Policy, e: Engine, c: Pass, calls: seq<Request>, buf: seq<Slot>, fuel: nat)
    requires Conforming(e)
    requires 0 < c.framesOut == |buf| && WrittenBefore(buf, |calls|) && fuel > 0
    requires var a := e(|calls|, ProcessRequest(c)); !IsSoxrError(a.err) && Flushes(c, a)
    ensures var res := Loop(policy, e, c, calls, buf, fuel);
      res.Done? ==> Delivered(policy, e, c, res.calls, res.out)
  {
    var q := ProcessRequest(c);
    var a := e(|calls|, q);
    var calls1 := calls + [q];
    assert Fits(q, a);
    var buf1 := Fill(buf, 0, a.done, |calls|);
    FillFromStart(buf, a.done, |calls|);
    var fq := FlushRequest(policy, c, a.done);
    var f := e(|calls1|, fq);
    assert Fits(fq, f);
    if !IsSoxrError(f.err) {
      var out := CopyOut(Fill(buf1, FlushOffset(policy, a.done), f.done, |calls1|), a.done + f.done);
      assert Loop(policy, e, c, calls, buf, fuel) == Done(out, calls1 + [fq]);
      FlushDelivers(policy, e, c, calls1, buf1, a, f, out);
    }
  }

  lemma ExtendsByOne(c: Pass, calls: seq<Request>, q: Request)
    requires q == ProcessRequest(c)
    ensures Extends(c, calls, calls + [q])
  {
    assert (calls + [q])[..|calls|] == calls;
  }

  lemma ExtendsByFlush(c: Pass, calls: seq<Request>, fq: Request)
    requires fq.Flush?
    ensures Extends(c, calls, calls + [ProcessRequest(c)] + [fq])
  {
    var after := calls + [ProcessRequest(c)] + [fq];
    assert after[..|calls|] == calls;
    assert after[|calls|] == ProcessRequest(c);
  }

  lemma ExtendsThrough(c: Pass, calls: seq<Request>, after: seq<Request>)
    requires Extends(c, calls + [ProcessRequest(c)], after)
    ensures Extends(c, calls, after)
  {
    var calls1 := calls + [ProcessRequest(c)];
    assert after[..|calls|] == calls1[..|calls|] == calls;
    assert after[|calls|] == calls1[|calls|];
  }

  /** The flush branch of `Loop` hands back what `Delivered` describes. */
  lemma FlushDelivers(policy: Policy, e: Engine, c: Pass, calls1: seq<Request>, buf1: seq<Slot>,
                      a: Reply, f: Reply, out: seq<Slot>)
    requires |calls1| >= 1 && 0 < c.framesOut == |buf1|
    requires calls1[|calls1| - 1] == ProcessRequest(c)
    requires a == e(|calls1| - 1, ProcessRequest(c))
    requires a.read == c.framesIn && a.done < c.framesOut
    requires forall i | 0 <= i < a.done :: buf1[i] == Emitted(|calls1| - 1, i)
    requires forall i | a.done <= i < |buf1| ::
      buf1[i] == Uninitialized || (buf1[i].Emitted? && buf1[i].call < |calls1| - 1 && buf1[i].pos == i)
    requires f == e(|calls1|, FlushRequest(policy, c, a.done))
    requires f.done <= FlushRequest(policy, c, a.done).capacity
    requires FlushOffset(policy, a.done) + f.done <= |buf1|
    requires out == CopyOut(Fill(buf1, FlushOffset(policy, a.done), f.done, |calls1|), a.done + f.done)
    ensures Delivered(policy, e, c, calls1 + [FlushRequest(policy, c, a.done)], out)
  {
    var calls2 := calls1 + [FlushRequest(policy, c, a.done)];
    assert calls2[|calls2| - 1] == FlushRequest(policy, c, a.done);
    assert calls2[|calls2| - 2] == ProcessRequest(c);
    match policy
    case AsWritten =>
    case Corrected =>
      assert out == Produced(|calls1| - 1, a.done) + Produced(|calls1|, f.done);
  }

  /**
    The inputs on which `Write` reaches the engine, stated without Go's arithmetic: a
    positive channel count, at least one whole frame, and enough whole frames that
    the rate ratio yields at least one output frame.
   */
  predicate Engaged(r: Resampler, p: seq<byte>)
    requires Constructed(r)
  {
    var stride := r.frameSize * r.channels;
    && r.channels > 0
    && |p| >= stride
    && (|p| / stride) as real * r.outRate >= r.inRate
  }

  /**
    The pass an engaged input gives, stated with Dafny's own (Euclidean) `/` and `%`,
    which agree with Go's here because the stride is positive.
   */
  function PassOf(r: Resampler, p: seq<byte>): (c: Pass)
    requires Constructed(r) && Engaged(r, p)
    ensures 0 < c.framesOut
  {
    var stride := r.frameSize * r.channels;
    PositiveStride(r.frameSize, r.channels);
    FramesOutFloor(|p| / stride, r.inRate, r.outRate);
    Pass(p[..|p| - |p| % stride], |p| / stride, FramesOut(|p| / stride, r.inRate, r.outRate))
  }

  /**
    What `PassOf` hands the engine: whole frames only, and an output frame count that
    is the floor of the input frames scaled by `outRate / inRate`.
   */
  lemma PassOfFacts(r: Resampler, p: seq<byte>)
    requires Constructed(r) && Engaged(r, p)
    ensures var stride := r.frameSize * r.channels;
      var c := PassOf(r, p);
      && |c.input| == c.framesIn * stride
      && c.framesOut as real * r.inRate <= c.framesIn as real * r.outRate
      && c.framesIn as real * r.outRate < (c.framesOut + 1) as real * r.inRate
  {
    var stride := r.frameSize * r.channels;
    var c := PassOf(r, p);
    assert |c.input| == c.framesIn * stride by {
      PositiveStride(r.frameSize, r.channels);
      DivisionParts(|p|, stride);
    }
    FramesOutFloor(c.framesIn, r.inRate, r.outRate);
  }

  lemma DivisionParts(n: nat, stride: int)
    requires stride > 0
    ensures n - n % stride == (n / stride) * stride
  {
  }

  /** Where `Write` stands when the loop is about to start: returned already, or about to run a pass. */
  datatype Admission = Early(err: Option<Error>) | Admitted(c: Pass)

  /**
    The checks and the frame arithmetic at the top of resample.go's `Write`, in its
    order: the nil handle, empty input, dropping the fragment, no whole frame, no
    output frame, and a negative output count, which skips the loop.
   */
  function Admit(r: Resampler, p: seq<byte>): (a: Admission)
    requires r.IsOpen() ==> Constructed(r)
    ensures a.Admitted? ==> 0 < a.c.framesOut
  {
    if !r.IsOpen() then Early(Some(NilResampler))
    else if |p| == 0 then Early(None)
    else
      Alignment(|p|, r.frameSize, r.channels);
      var fragment := Fragment(|p|, r.frameSize, r.channels);
      var input := if fragment != 0 then p[..|p| - fragment] else p;
      var framesIn := FramesIn(|p|, r.frameSize, r.channels);
      if framesIn == 0 then Early(Some(IncompleteFrame))
      else
        var framesOut := FramesOut(framesIn, r.inRate, r.outRate);
        if framesOut == 0 then Early(Some(NotEnoughInput))
        else if framesOut < 0 then
          // Only reachable with a negative channel count: the loop condition
          // `0 < framesOut` fails at once and C.GoBytes copies nothing.
          Early(None)
        else
          FramesOutFloor(framesIn, r.inRate, r.outRate);
          Admitted(Pass(input, framesIn, framesOut))
  }

  /**
    An open session gets past the checks exactly on engaged input, and then runs the
    pass `PassOf` describes.
   */
  lemma ReachesLoop(r: Resampler, p: seq<byte>)
    requires Constructed(r) && r.IsOpen()
    ensures Admit(r, p).Admitted? <==> Engaged(r, p)
    ensures Engaged(r, p) ==> Admit(r, p) == Admitted(PassOf(r, p))
  {
    if |p| == 0 {
      assert !Engaged(r, p);
    } else if r.channels > 0 {
      PositiveChannelsAdmit(r, p);
    } else {
      NegativeChannelsAdmit(r, p);
    }
  }

  lemma PositiveChannelsAdmit(r: Resampler, p: seq<byte>)
    requires Constructed(r) && r.IsOpen() && r.channels > 0 && |p| > 0
    ensures Admit(r, p).Admitted? <==> Engaged(r, p)
    ensures Engaged(r, p) ==> Admit(r, p) == Admitted(PassOf(r, p))
  {
    var n, frameSize, channels := |p|, r.frameSize, r.channels;
    var framesIn := FramesIn(n, frameSize, channels);
    var framesOut := FramesOut(framesIn, r.inRate, r.outRate);
    assert framesIn == n / (frameSize * channels) by {
      PositiveAlignment(n, frameSize, channels);
    }
    assert (framesIn != 0 && framesOut > 0) <==> Engaged(r, p) by {
      PositiveChannelsReachLoop(n, frameSize, channels, r.inRate, r.outRate, framesIn, framesOut);
      EngagedUnfolds(r, p, framesIn);
    }
    if Engaged(r, p) {
      EngagedPass(r, p);
    }
  }

  lemma EngagedPass(r: Resampler, p: seq<byte>)
    requires Constructed(r) && r.IsOpen() && r.channels > 0 && |p| > 0 && Engaged(r, p)
    requires var framesIn := FramesIn(|p|, r.frameSize, r.channels);
      framesIn != 0 && FramesOut(framesIn, r.inRate, r.outRate) > 0
    ensures Admit(r, p) == Admitted(PassOf(r, p))
  {
    var n, frameSize, channels := |p|, r.frameSize, r.channels;
    var stride := frameSize * channels;
    assert FramesIn(n, frameSize, channels) == n / stride && Fragment(n, frameSize, channels) == n % stride by {
      PositiveAlignment(n, frameSize, channels);
      Alignment(n, frameSize, channels);
    }
    assert p[..n - 0] == p;
  }

  lemma EngagedUnfolds(r: Resampler, p: seq<byte>, framesIn: int)
    requires Constructed(r) && r.channels > 0 && framesIn == |p| / (r.frameSize * r.channels)
    ensures Engaged(r, p) <==> |p| >= r.frameSize * r.channels && framesIn as real * r.outRate >= r.inRate
  {
  }

  lemma NegativeChannelsAdmit(r: Resampler, p: seq<byte>)
    requires Constructed(r) && r.IsOpen() && r.channels < 0 && |p| > 0
    ensures !Admit(r, p).Admitted? && !Engaged(r, p)
  {
    var framesIn := FramesIn(|p|, r.frameSize, r.channels);
    assert framesIn <= 0 by {
      Alignment(|p|, r.frameSize, r.channels);
    }
    assert framesIn < 0 ==> FramesOut(framesIn, r.inRate, r.outRate) <= 0 by {
      FramesOutFloor(framesIn, r.inRate, r.outRate);
    }
  }

  /** When a positive channel count reaches the loop, over plain numbers. */
  lemma PositiveChannelsReachLoop(n: nat, frameSize: int, channels: int, inRate: real, outRate: real,
                                  framesIn: int, framesOut: int)
    requires frameSize in {2, 4, 8} && channels > 0 && inRate > 0.0 && outRate > 0.0
    requires framesIn == FramesIn(n, frameSize, channels)
    requires framesOut == FramesOut(framesIn, inRate, outRate)
    ensures (framesIn != 0 && framesOut > 0) <==> (n >= frameSize * channels && framesIn as real * outRate >= inRate)
  {
    assert framesIn >= 0 && (framesIn != 0 <==> n >= frameSize * channels) by {
      PositiveAlignment(n, frameSize, channels);
    }
    assert framesOut >= 0 && (framesOut == 0 <==> framesIn as real * outRate < inRate) by {
      FramesOutFloor(framesIn, inRate, outRate);
    }
    EngagedWhen(n, frameSize * channels, framesIn, framesOut, framesIn as real * outRate, inRate);
  }

  lemma EngagedWhen(n: nat, stride: int, framesIn: int, framesOut: int, scaled: real, inRate: real)
    requires framesIn >= 0 && framesOut >= 0
    requires framesIn != 0 <==> n >= stride
    requires framesOut == 0 <==> scaled < inRate
    ensures (framesIn != 0 && framesOut > 0) <==> (n >= stride && scaled >= inRate)
  {
  }

  lemma PositiveAlignment(n: nat, frameSize: int, channels: int)
    requires frameSize in {2, 4, 8} && channels > 0
    ensures var stride := frameSize * channels;
      var framesIn := FramesIn(n, frameSize, channels);
      && stride > 0
      && framesIn == n / stride
      && (framesIn != 0 <==> n >= stride)
      && framesIn >= 0
  {
    PositiveStride(frameSize, channels);
    Alignment(n, frameSize, channels);
  }

  lemma PositiveStride(frameSize: int, channels: int)
    requires frameSize > 0 && channels > 0
    ensures frameSize * channels > 0
    ensures Abs(frameSize * channels) == frameSize * channels
  {
  }

  /**
    `Write(p)` on session `r`, as a function of the engine's behaviour: the checks, then
    the loop on the pass they admit. Any error returns no frames.
   */
  function Outcome(policy: Policy, r: Resampler, p: seq<byte>, e: Engine, fuel: nat): (res: WriteOutcome)
    requires Conforming(e)
    requires r.IsOpen() ==> Constructed(r)
    ensures res.Returned? && res.err.Some? ==> res.out == []
  {
    match Admit(r, p)
    case Early(err) => Returned([], err, [])
    case Admitted(c) => Reported(Loop(policy, e, c, [], Allocate(c.framesOut), fuel))
  }

  /**
    How `Write` reports the loop: the frames of a loop that ends, a soxr error with no
    frames for one that fails, and not yet returned for one out of fuel.
   */
  function Reported(lr: LoopOutcome): (res: WriteOutcome)
    ensures res.calls == lr.calls
    ensures res.Returned? && res.err.Some? <==> lr.Failed?
    ensures res.Returned? && res.err.Some? ==> res.out == [] && res.err.value == Soxr(lr.msg)
    ensures res.Returned? && res.err.None? <==> lr.Done?
    ensures res.Unfinished? <==> lr.OutOfFuel?
  {
    match lr
    case Done(out, calls) => Returned(out, None, calls)
    case Failed(msg, calls) => Returned([], Some(Soxr(msg)), calls)
    case OutOfFuel(calls) => Unfinished(calls)
  }

  /**
    resample.go's `Write`, check by check, with the loop bounded by `fuel` passes. For a
    negative `framesOut` Go goes on, allocates no frames, skips the loop and copies no
    bytes; this returns at once with that same result. It computes exactly
    `Outcome(AsWritten, ...)`.
   */
  method Write(r: Resampler, p: seq<byte>, e: Engine, fuel: nat) returns (res: WriteOutcome)
    requires Conforming(e)
    requires r.IsOpen() ==> Constructed(r)
    ensures res == Outcome(AsWritten, r, p, e, fuel)
    ensures !r.IsOpen() ==> res == Returned([], Some(NilResampler), [])
    ensures r.IsOpen() && |p| == 0 ==> res == Returned([], None, [])
  {
    if r.handle.Nil? {
      return Returned([], Some(NilResampler), []);
    }
    if |p| == 0 {
      return Returned([], None, []);
    }
    Alignment(|p|, r.frameSize, r.channels);
    var input := p;
    var fragment := Fragment(|p|, r.frameSize, r.channels);
    if fragment != 0 {
      input := p[..|p| - fragment];
    }
    var framesIn := FramesIn(|p|, r.frameSize, r.channels);
    if framesIn == 0 {
      return Returned([], Some(IncompleteFrame), []);
    }
    var framesOut := FramesOut(framesIn, r.inRate, r.outRate);
    if framesOut == 0 {
      return Returned([], Some(NotEnoughInput), []);
    }
    if framesOut < 0 {
      return Returned([], None, []);
    }
    FramesOutFloor(framesIn, r.inRate, r.outRate);
    var c := Pass(input, framesIn, framesOut);
    assert Admit(r, p) == Admitted(c);
    var loop := Drive(e, c, fuel);
    match loop
    case Done(out, calls) => return Returned(out, None, calls);
    case Failed(msg, calls) => return Returned([], Some(Soxr(msg)), calls);
    case OutOfFuel(calls) => return Unfinished(calls);
  }

  /**
    The engine-driving loop of resample.go's `Write`: `dataIn`, `framesIn` and `framesOut`
    are those of `c`, and at most `fuel` passes are made. It computes exactly
    `Loop(AsWritten, ...)` from an empty call history and a fresh buffer.
   */
  method Drive(e: Engine, c: Pass, fuel: nat) returns (res: LoopOutcome)
    requires Conforming(e)
    requires 0 < c.framesOut
    ensures res == Loop(AsWritten, e, c, [], Allocate(c.framesOut), fuel)
  {
    ghost var target := Loop(AsWritten, e, c, [], Allocate(c.framesOut), fuel);
    var dataOut := Allocate(c.framesOut);
    var calls: seq<Request> := [];
    var done: nat := 0;
    var passes := fuel;
    while done < c.framesOut
      invariant |dataOut| == c.framesOut && done <= c.framesOut && WrittenBefore(dataOut, |calls|)
      invariant done < c.framesOut ==> Loop(AsWritten, e, c, calls, dataOut, passes) == target
      invariant done == c.framesOut ==> target == Done(CopyOut(dataOut, done), calls)
      decreases passes
    {
      if passes == 0 {
        return OutOfFuel(calls);
      }
      passes := passes - 1;
      var q := Process(c.input, c.framesIn, c.framesOut);
      var a := e(|calls|, q);
      assert Fits(q, a);
      calls := calls + [q];
      if IsSoxrError(a.err) {
        return Failed(a.err, calls);
      }
      FillFromStart(dataOut, a.done, |calls| - 1);
      dataOut := Fill(dataOut, 0, a.done, |calls| - 1);
      done := a.done;
      if a.read == c.framesIn && done < c.framesOut {
        // Input is exhausted: ask soxr for what it still holds, with no new input.
        var fq := Flush(c.framesOut);
        var d := e(|calls|, fq);
        assert Fits(fq, d);
        calls := calls + [fq];
        if IsSoxrError(d.err) {
          return Failed(d.err, calls);
        }
        dataOut := Fill(dataOut, 0, d.done, |calls| - 1);
        done := done + d.done;
        return Done(CopyOut(dataOut, done), calls);
      }
    }
    return Done(CopyOut(dataOut, done), calls);
  }

  /** Bytes C.malloc reserves for `dataOut`: `framesOut * channels * frameSize`. */
  function AllocatedBytes(r: Resampler, c: Pass): int {
    c.framesOut * r.channels * r.frameSize
  }

  /** Bytes C.GoBytes copies out of `dataOut`: `done * channels * frameSize`. */
  function CopiedBytes(r: Resampler, out: seq<Slot>): int {
    |out| * r.channels * r.frameSize
  }
}

=== FILE: wrappers.dfy ===
/** Optional values and success-or-error results, used for Go's `(value, error)` returns. */
module Wrappers {

  datatype Option<+T> = None | Some(value: T)

  datatype Result<+R, +E> = Success(value: R) | Failure(error: E)
}

=== FILE: write_facts.dfy ===
/** What `Write` promises its caller, for every behaviour of the engine. */
module WriteFacts {
  import opened Wrappers
  import opened GoInt
  import opened Session
  import opened Frames
  import opened Engine
  import opened Streaming

  /**
    An open session calls the engine exactly when the input is engaged and there is fuel
    for a pass; it then only ever resubmits the one aligned process request, and at most
    one flush comes last. Otherwise `Write` returns at once with no frames.
   */
  lemma EngineCalledIff(policy: Policy, r: Resampler, p: seq<byte>, e: Engine, fuel: nat)
    requires Conforming(e) && Constructed(r) && r.IsOpen()
    ensures var res := Outcome(policy, r, p, e, fuel);
      && (res.calls != [] <==> Engaged(r, p) && fuel > 0)
      && (!Engaged(r, p) ==> res.Returned? && res.out == [])
      && (Engaged(r, p) ==> forall i | 0 <= i < |res.calls| ::
            res.calls[i] == ProcessRequest(PassOf(r, p)) || (i == |res.calls| - 1 && res.calls[i].Flush?))
  {
    ReachesLoop(r, p);
  }

  /**
    With a positive channel count: "Incomplete input frame data" exactly when the input
    is shorter than one frame, and "Not enough input to generate output" exactly when the
    whole frames scaled by `outRate / inRate` fall below one; neither calls the engine.
   */
  lemma TooLittleInput(policy: Policy, r: Resampler, p: seq<byte>, e: Engine, fuel: nat)
    requires Conforming(e) && Constructed(r) && r.IsOpen() && r.channels > 0 && |p| > 0
    ensures var stride := r.frameSize * r.channels;
      var res := Outcome(policy, r, p, e, fuel);
      && (res == Returned([], Some(IncompleteFrame), []) <==> |p| < stride)
      && (res == Returned([], Some(NotEnoughInput), []) <==>
            |p| >= stride && (|p| / stride) as real * r.outRate < r.inRate)
  {
    AdmitIncomplete(r, p);
    AdmitNotEnough(r, p);
    ReachesLoop(r, p);
  }

  /** The "Incomplete input frame data" half of `TooLittleInput`, for the checks alone. */
  lemma AdmitIncomplete(r: Resampler, p: seq<byte>)
    requires Constructed(r) && r.IsOpen() && r.channels > 0 && |p| > 0
    ensures Admit(r, p) == Early(Some(IncompleteFrame)) <==> |p| < r.frameSize * r.channels
  {
    var framesIn := FramesIn(|p|, r.frameSize, r.channels);
    assert framesIn == 0 <==> |p| < r.frameSize * r.channels by {
      PositiveAlignment(|p|, r.frameSize, r.channels);
    }
  }

  /** The "Not enough input to generate output" half of `TooLittleInput`, for the checks alone. */
  lemma AdmitNotEnough(r: Resampler, p: seq<byte>)
    requires Constructed(r) && r.IsOpen() && r.channels > 0 && |p| > 0
    ensures var stride := r.frameSize * r.channels;
      Admit(r, p) == Early(Some(NotEnoughInput)) <==>
        |p| >= stride && (|p| / stride) as real * r.outRate < r.inRate
  {
    var framesIn := FramesIn(|p|, r.frameSize, r.channels);
    var framesOut := FramesOut(framesIn, r.inRate, r.outRate);
    assert (framesIn != 0 && framesOut == 0) <==>
             |p| >= r.frameSize * r.channels && (|p| / (r.frameSize * r.channels)) as real * r.outRate < r.inRate by {
      NotEnoughWhen(|p|, r.frameSize, r.channels, r.inRate, r.outRate, framesIn, framesOut);
    }
  }

  lemma NotEnoughWhen(n: nat, frameSize: int, channels: int, inRate: real, outRate: real,
                      framesIn: int, framesOut: int)
    requires frameSize in {2, 4, 8} && channels > 0 && inRate > 0.0 && outRate > 0.0
    requires framesIn == FramesIn(n, frameSize, channels)
    requires framesOut == FramesOut(framesIn, inRate, outRate)
    ensures (framesIn != 0 && framesOut == 0) <==>
              n >= frameSize * channels && (n / (frameSize * channels)) as real * outRate < inRate
  {
    assert framesIn >= 0 && framesIn == n / (frameSize * channels) && (framesIn != 0 <==> n >= frameSize * channels) by {
      PositiveAlignment(n, frameSize, channels);
    }
    assert framesOut == 0 <==> framesIn as real * outRate < inRate by {
      FramesOutFloor(framesIn, inRate, outRate);
    }
  }

  /**
    A negative channel count gets past `New`, but `Write` then never reaches the engine
    and never returns a frame: framesIn and framesOut come out zero or negative. Input
    shorter than one frame is "Incomplete input frame data"; otherwise, with `m` whole
    frames, it is "Not enough input…" when `m` frames scaled by `outRate / inRate` make
    less than one frame, and no error at all when they make one or more.
   */
  lemma NegativeChannelsWrite(policy: Policy, r: Resampler, p: seq<byte>, e: Engine, fuel: nat)
    requires Conforming(e) && Constructed(r) && r.IsOpen() && r.channels < 0
    ensures var res := Outcome(policy, r, p, e, fuel);
      && res.Returned? && res.out == [] && res.calls == []
      && (res.err.Some? ==> res.err.value == IncompleteFrame || res.err.value == NotEnoughInput)
    ensures var res := Outcome(policy, r, p, e, fuel);
      var stride := Abs(r.frameSize * r.channels);
      && (res.err == Some(IncompleteFrame) <==> 0 < |p| < stride)
      && (res.err == Some(NotEnoughInput) <==> |p| >= stride && (|p| / stride) as real * r.outRate < r.inRate)
  {
    if |p| > 0 {
      NegativeChannelsAdmit(r, p);
      NegativeChannelsChecks(r, p);
    }
  }

  /** Which early return the checks take for a negative channel count. */
  lemma NegativeChannelsChecks(r: Resampler, p: seq<byte>)
    requires Constructed(r) && r.IsOpen() && r.channels < 0 && |p| > 0
    ensures var stride := Abs(r.frameSize * r.channels);
      && (Admit(r, p) == Early(Some(IncompleteFrame)) <==> |p| < stride)
      && (Admit(r, p) == Early(Some(NotEnoughInput)) <==>
            |p| >= stride && (|p| / stride) as real * r.outRate < r.inRate)
  {
    var stride := Abs(r.frameSize * r.channels);
    var framesIn := FramesIn(|p|, r.frameSize, r.channels);
    var framesOut := FramesOut(framesIn, r.inRate, r.outRate);
    assert && (framesIn == 0 <==> |p| < stride)
           && (framesIn != 0 ==> (framesOut == 0 <==> (|p| / stride) as real * r.outRate < r.inRate)) by {
      NegativeFrames(|p|, r.frameSize, r.channels, r.inRate, r.outRate, framesIn, framesOut);
    }
  }

  /** Go's frame arithmetic for a negative channel count, over plain numbers. */
  lemma NegativeFrames(n: nat, frameSize: int, channels: int, inRate: real, outRate: real,
                       framesIn: int, framesOut: int)
    requires frameSize in {2, 4, 8} && channels < 0 && inRate > 0.0 && outRate > 0.0
    requires framesIn == FramesIn(n, frameSize, channels)
    requires framesOut == FramesOut(framesIn, inRate, outRate)
    ensures var stride := Abs(frameSize * channels);
      && (framesIn == 0 <==> n < stride)
      && (framesIn != 0 ==> (framesOut == 0 <==> (n / stride) as real * outRate < inRate))
  {
    var stride := frameSize * channels;
    var m := n / Abs(stride);
    assert framesIn == -m by {
      FramesInIsQuotient(n, frameSize, channels);
    }
    assert framesIn == 0 <==> n < Abs(stride) by {
      Alignment(n, frameSize, channels);
    }
    FramesOutNegated(m, inRate, outRate);
    FramesOutFloor(m, inRate, outRate);
  }

  /** Truncation is symmetric: `m` frames and `-m` frames give opposite output counts. */
  lemma FramesOutNegated(m: int, inRate: real, outRate: real)
    requires inRate > 0.0
    ensures FramesOut(-m, inRate, outRate) == -FramesOut(m, inRate, outRate)
  {
    var x := m as real * (outRate / inRate);
    assert (-m) as real * (outRate / inRate) == -x;
    TruncNegated(x);
  }

  /**
    On engaged input: a successful call returns what `Delivered` describes, and a failed
    one carries, verbatim, the error text of the engine call that failed, with no frames.
   */
  lemma WriteDelivers(policy: Policy, r: Resampler, p: seq<byte>, e: Engine, fuel: nat)
    requires Conforming(e) && Constructed(r) && r.IsOpen() && Engaged(r, p)
    ensures var res := Outcome(policy, r, p, e, fuel);
      && (res.Returned? && res.err.None? ==> Delivered(policy, e, PassOf(r, p), res.calls, res.out))
      && (res.Returned? && res.err.Some? ==>
            && res.out == []
            && res.calls != []
            && res.err.value == Soxr(e(|res.calls| - 1, res.calls[|res.calls| - 1]).err)
            && IsSoxrError(res.err.value.msg))
  {
    ReachesLoop(r, p);
    var c := PassOf(r, p);
    LoopDelivers(policy, e, c, [], Allocate(c.framesOut), fuel);
  }

  /**
    An engine call of a `Write` reports an error exactly when it is the last call and
    `Write` fails: an error from the process call or from the flush is never swallowed,
    and a first process call that fails ends `Write` at once, with no frames.
   */
  lemma WriteErrors(policy: Policy, r: Resampler, p: seq<byte>, e: Engine, fuel: nat)
    requires Conforming(e) && Constructed(r) && r.IsOpen() && Engaged(r, p)
    ensures var res := Outcome(policy, r, p, e, fuel);
      forall k | 0 <= k < |res.calls| ::
        IsSoxrError(e(k, res.calls[k]).err) <==> res.Returned? && res.err.Some? && k == |res.calls| - 1
    ensures var q := ProcessRequest(PassOf(r, p));
      fuel > 0 && IsSoxrError(e(0, q).err) ==>
        Outcome(policy, r, p, e, fuel) == Returned([], Some(Soxr(e(0, q).err)), [q])
  {
    ReachesLoop(r, p);
    var c := PassOf(r, p);
    LoopErrors(policy, e, c, [], Allocate(c.framesOut), fuel);
    ReportedErrors(e, Loop(policy, e, c, [], Allocate(c.framesOut), fuel));
  }

  /** The error facts of a loop carry over to what `Write` reports. */
  lemma ReportedErrors(e: Engine, lr: LoopOutcome)
    requires forall k | 0 <= k < |lr.calls| ::
      IsSoxrError(e(k, lr.calls[k]).err) <==> lr.Failed? && k == |lr.calls| - 1
    ensures var res := Reported(lr);
      forall k | 0 <= k < |res.calls| ::
        IsSoxrError(e(k, res.calls[k]).err) <==> res.Returned? && res.err.Some? && k == |res.calls| - 1
  {
  }

  /**
    Among the calls a loop makes, an engine call reports an error exactly when it is the
    last call of a loop that fails; a failing process call ends the loop at once.
   */
  lemma {:induction false} LoopErrors(policy: Policy, e: Engine, c: Pass, calls: seq<Request>,
                                      buf: seq<Slot>, fuel: nat)
    requires Conforming(e) && 0 < c.framesOut == |buf| && WrittenBefore(buf, |calls|)
    ensures var res := Loop(policy, e, c, calls, buf, fuel);
      forall k | |calls| <= k < |res.calls| ::
        IsSoxrError(e(k, res.calls[k]).err) <==> res.Failed? && k == |res.calls| - 1
    ensures var q := ProcessRequest(c);
      fuel > 0 && IsSoxrError(e(|calls|, q).err) ==>
        Loop(policy, e, c, calls, buf, fuel) == Failed(e(|calls|, q).err, calls + [q])
    decreases fuel
  {
    if fuel > 0 {
      var q := ProcessRequest(c);
      var a := e(|calls|, q);
      assert Fits(q, a);
      var res := Loop(policy, e, c, calls, buf, fuel);
      if IsSoxrError(a.err) {
        assert res == Failed(a.err, calls + [q]);
        LastCallErrors(e, calls, q, res);
      } else {
        var buf1 := Fill(buf, 0, a.done, |calls|);
        FillFromStart(buf, a.done, |calls|);
        if a.read == c.framesIn && a.done < c.framesOut {
          var fq := FlushRequest(policy, c, a.done);
          assert res.calls == calls + [q] + [fq];
          assert res.Failed? <==> IsSoxrError(e(|calls| + 1, fq).err);
          FlushErrors(e, calls, q, fq, res);
        } else if a.done < c.framesOut {
          var rest := Loop(policy, e, c, calls + [q], buf1, fuel - 1);
          assert res == rest;
          LoopErrors(policy, e, c, calls + [q], buf1, fuel - 1);
          ErrorsExtend(e, calls, q, rest);
        } else {
          assert res == Done(CopyOut(buf1, a.done), calls + [q]);
          LastCallErrors(e, calls, q, res);
        }
      }
      assert forall k | |calls| <= k < |res.calls| ::
        IsSoxrError(e(k, res.calls[k]).err) <==> res.Failed? && k == |res.calls| - 1;
    }
  }

  /** A loop that ends after one process call reports an error iff that call did. */
  lemma LastCallErrors(e: Engine, calls: seq<Request>, q: Request, res: LoopOutcome)
    requires res.calls == calls + [q]
    requires res.Failed? <==> IsSoxrError(e(|calls|, q).err)
    ensures forall k | |calls| <= k < |res.calls| ::
      IsSoxrError(e(k, res.calls[k]).err) <==> res.Failed? && k == |res.calls| - 1
  {
    assert res.calls[|calls|] == q;
  }

  /** A loop that ends with the flush reports an error iff the flush did. */
  lemma FlushErrors(e: Engine, calls: seq<Request>, q: Request, fq: Request, res: LoopOutcome)
    requires !IsSoxrError(e(|calls|, q).err)
    requires res.calls == calls + [q] + [fq]
    requires res.Failed? <==> IsSoxrError(e(|calls| + 1, fq).err)
    ensures forall k | |calls| <= k < |res.calls| ::
      IsSoxrError(e(k, res.calls[k]).err) <==> res.Failed? && k == |res.calls| - 1
  {
    assert res.calls[|calls|] == q && res.calls[|calls| + 1] == fq;
  }

  /** A call without error in front of calls that fail only last keeps that shape. */
  lemma ErrorsExtend(e: Engine, calls: seq<Request>, q: Request, res: LoopOutcome)
    requires !IsSoxrError(e(|calls|, q).err)
    requires |calls| < |res.calls| && res.calls[..|calls| + 1] == calls + [q]
    requires res.Failed? ==> |calls| + 1 < |res.calls|
    requires forall k | |calls| + 1 <= k < |res.calls| ::
      IsSoxrError(e(k, res.calls[k]).err) <==> res.Failed? && k == |res.calls| - 1
    ensures forall k | |calls| <= k < |res.calls| ::
      IsSoxrError(e(k, res.calls[k]).err) <==> res.Failed? && k == |res.calls| - 1
  {
    assert res.calls[|calls|] == (calls + [q])[|calls|] == q;
  }

  /**
    How the calls from index `n` on follow one another. The first is the process request.
    Every call that is followed by another succeeded and did not fill the output; the
    next call is a process call exactly when that pass fell short, and the flush exactly
    when it read all input. A loop that ends on a process call stops because that call
    wrote every frame, and one out of fuel was last sent round again by a pass that fell
    short.
   */
  ghost predicate PassesFollow(e: Engine, c: Pass, n: nat, res: LoopOutcome) {
    var last := |res.calls| - 1;
    && (n < |res.calls| ==> res.calls[n] == ProcessRequest(c))
    && (forall k | n <= k < last ::
          && res.calls[k] == ProcessRequest(c)
          && !IsSoxrError(e(k, res.calls[k]).err)
          && !Stops(c, e(k, res.calls[k]))
          && (res.calls[k + 1].Process? <==> FellShort(c, e(k, res.calls[k])))
          && (res.calls[k + 1].Flush? <==> Flushes(c, e(k, res.calls[k]))))
    && (res.Done? && n <= last && res.calls[last].Process? ==> Stops(c, e(last, res.calls[last])))
    && (res.OutOfFuel? && n <= last ==>
          res.calls[last] == ProcessRequest(c) && FellShort(c, e(last, res.calls[last])))
  }

  /**
    The loop goes round again exactly after a pass that neither filled the output nor
    read all input, flushes exactly after one that read all input but fell short, and
    stops after one that filled the output.
   */
  lemma {:induction false} LoopPasses(policy: Policy, e: Engine, c: Pass, calls: seq<Request>,
                                      buf: seq<Slot>, fuel: nat)
    requires Conforming(e)
    requires 0 < c.framesOut == |buf| && WrittenBefore(buf, |calls|)
    ensures PassesFollow(e, c, |calls|, Loop(policy, e, c, calls, buf, fuel))
    decreases fuel
  {
    if fuel > 0 {
      var q := ProcessRequest(c);
      var a := e(|calls|, q);
      assert Fits(q, a);
      var res := Loop(policy, e, c, calls, buf, fuel);
      if IsSoxrError(a.err) {
        assert res == Failed(a.err, calls + [q]);
        LastPass(e, c, calls, res);
      } else {
        var buf1 := Fill(buf, 0, a.done, |calls|);
        FillFromStart(buf, a.done, |calls|);
        if Flushes(c, a) {
          var fq := FlushRequest(policy, c, a.done);
          assert res.calls == calls + [q] + [fq] && !res.OutOfFuel?;
          FlushPass(e, c, calls, fq, res);
        } else if !Stops(c, a) {
          var rest := Loop(policy, e, c, calls + [q], buf1, fuel - 1);
          assert res == rest;
          LoopPasses(policy, e, c, calls + [q], buf1, fuel - 1);
          assert PassesFollow(e, c, |calls| + 1, rest);
          PassesExtend(e, c, calls, rest);
        } else {
          assert res == Done(CopyOut(buf1, a.done), calls + [q]);
          LastPass(e, c, calls, res);
        }
      }
      assert PassesFollow(e, c, |calls|, res);
    }
  }

  /** A loop that ends with its first process call, by an error or a full pass. */
  lemma LastPass(e: Engine, c: Pass, calls: seq<Request>, res: LoopOutcome)
    requires var q := ProcessRequest(c);
      && res.calls == calls + [q] && !res.OutOfFuel?
      && (res.Done? ==> Stops(c, e(|calls|, q)))
    ensures PassesFollow(e, c, |calls|, res)
  {
    assert res.calls[|calls|] == ProcessRequest(c);
  }

  /** A pass that read all input but fell short, followed by the flush, ends the loop. */
  lemma FlushPass(e: Engine, c: Pass, calls: seq<Request>, fq: Request, res: LoopOutcome)
    requires var q := ProcessRequest(c);
      && fq.Flush? && !IsSoxrError(e(|calls|, q).err) && Flushes(c, e(|calls|, q))
      && res.calls == calls + [q] + [fq] && !res.OutOfFuel?
    ensures PassesFollow(e, c, |calls|, res)
  {
    assert res.calls[|calls|] == ProcessRequest(c) && res.calls[|calls| + 1] == fq;
  }

  /** A pass that fell short, in front of a loop whose passes follow, keeps them following. */
  lemma PassesExtend(e: Engine, c: Pass, calls: seq<Request>, res: LoopOutcome)
    requires var q := ProcessRequest(c);
      && !IsSoxrError(e(|calls|, q).err) && FellShort(c, e(|calls|, q))
      && |calls| < |res.calls| && res.calls[..|calls| + 1] == calls + [q]
      && (res.OutOfFuel? || |calls| + 1 < |res.calls|)
    requires PassesFollow(e, c, |calls| + 1, res)
    ensures PassesFollow(e, c, |calls|, res)
  {
    assert res.calls[|calls|] == (calls + [ProcessRequest(c)])[|calls|];
  }

  /**
    On engaged input, `Write` drives the engine as resample.go's loop does: it sends the
    process request again exactly after a pass that fell short, flushes exactly after a
    pass that read all input but fell short, and returns without error after a process
    call only once that call wrote every frame.
   */
  lemma WritePasses(policy: Policy, r: Resampler, p: seq<byte>, e: Engine, fuel: nat)
    requires Conforming(e) && Constructed(r) && r.IsOpen() && Engaged(r, p)
    ensures var res := Outcome(policy, r, p, e, fuel);
      var c := PassOf(r, p);
      var last := |res.calls| - 1;
      && (fuel > 0 ==> |res.calls| > 0 && res.calls[0] == ProcessRequest(c))
      && (forall k | 0 <= k < last ::
            && !Stops(c, e(k, res.calls[k]))
            && (res.calls[k + 1].Process? <==> FellShort(c, e(k, res.calls[k])))
            && (res.calls[k + 1].Flush? <==> Flushes(c, e(k, res.calls[k]))))
      && (res.Returned? && res.err.None? && 0 <= last && res.calls[last].Process? ==>
            Stops(c, e(last, res.calls[last])))
      && (res.Unfinished? && 0 <= last ==> FellShort(c, e(last, res.calls[last])))
  {
    ReachesLoop(r, p);
    var c := PassOf(r, p);
    LoopPasses(policy, e, c, [], Allocate(c.framesOut), fuel);
  }

  /**
    With the corrected flush, the bytes copied out never exceed the bytes allocated,
    and every frame copied out is one the engine wrote.
   */
  lemma CorrectedFitsAllocation(r: Resampler, p: seq<byte>, e: Engine, fuel: nat)
    requires Conforming(e) && Constructed(r) && r.IsOpen() && Engaged(r, p)
    ensures var res := Outcome(Corrected, r, p, e, fuel);
      res.Returned? && res.err.None? ==>
        && CopiedBytes(r, res.out) <= AllocatedBytes(r, PassOf(r, p))
        && forall i | 0 <= i < |res.out| :: res.out[i].Emitted?
  {
    var res := Outcome(Corrected, r, p, e, fuel);
    WriteDelivers(Corrected, r, p, e, fuel);
    if res.Returned? && res.err.None? {
      var c := PassOf(r, p);
      CorrectedDeliveryFits(e, c, res.calls, res.out);
      FrameBytesAtMost(|res.out|, c.framesOut, r.channels, r.frameSize);
    }
  }

  /** A corrected delivery is no longer than the allocation and made of engine output only. */
  lemma CorrectedDeliveryFits(e: Engine, c: Pass, calls: seq<Request>, out: seq<Slot>)
    requires Conforming(e) && Delivered(Corrected, e, c, calls, out)
    ensures |out| <= c.framesOut
    ensures forall i | 0 <= i < |out| :: out[i].Emitted?
  {
    var last := |calls| - 1;
    if calls[last].Flush? {
      var d1, d2 := e(last - 1, calls[last - 1]).done, e(last, calls[last]).done;
      assert Fits(calls[last], e(last, calls[last]));
      var head, tail := Produced(last - 1, d1), Produced(last, d2);
      assert out == head + tail;
      forall i | 0 <= i < |out|
        ensures out[i].Emitted?
      {
        if i < d1 {
          assert out[i] == head[i];
        } else {
          assert out[i] == tail[i - d1];
        }
      }
    }
  }

  lemma FrameBytesAtMost(n: nat, m: nat, channels: int, frameSize: int)
    requires n <= m && channels > 0 && frameSize > 0
    ensures n * channels * frameSize <= m * channels * frameSize
  {
    var k := channels * frameSize;
    assert n * channels * frameSize == n * k;
    assert m * channels * frameSize == m * k;
    ScaleMonotone(n, m, k);
  }

  /**
    As written, the bytes copied out are less than twice those allocated, and equal
    to them whenever the call ended without a flush.
   */
  lemma AsWrittenCopyBound(r: Resampler, p: seq<byte>, e: Engine, fuel: nat)
    requires Conforming(e) && Constructed(r) && r.IsOpen() && Engaged(r, p)
    ensures var res := Outcome(AsWritten, r, p, e, fuel);
      res.Returned? && res.err.None? ==>
        && CopiedBytes(r, res.out) < 2 * AllocatedBytes(r, PassOf(r, p))
        && (res.calls != [] && res.calls[|res.calls| - 1].Process? ==>
              CopiedBytes(r, res.out) == AllocatedBytes(r, PassOf(r, p)))
  {
    var res := Outcome(AsWritten, r, p, e, fuel);
    WriteDelivers(AsWritten, r, p, e, fuel);
    if res.Returned? && res.err.None? {
      AsWrittenDeliveryBound(e, PassOf(r, p), res.calls, res.out);
      FrameBytes(|res.out|, PassOf(r, p).framesOut, r.channels, r.frameSize);
    }
  }

  /** As written, fewer than twice `framesOut` frames come back, and exactly `framesOut` without a flush. */
  lemma AsWrittenDeliveryBound(e: Engine, c: Pass, calls: seq<Request>, out: seq<Slot>)
    requires Conforming(e) && 0 < c.framesOut && Delivered(AsWritten, e, c, calls, out)
    ensures |out| < 2 * c.framesOut
    ensures calls[|calls| - 1].Process? ==> |out| == c.framesOut
  {
    var last := |calls| - 1;
    assert Fits(calls[last], e(last, calls[last]));
  }

  lemma FrameBytes(n: nat, m: nat, channels: int, frameSize: int)
    requires channels > 0 && frameSize > 0
    ensures n < 2 * m ==> n * channels * frameSize < 2 * (m * channels * frameSize)
  {
    var k := channels * frameSize;
    assert n * channels * frameSize == n * k;
    assert m * channels * frameSize == m * k;
    if n < 2 * m {
      ScaleMonotone(n + 1, 2 * m, k);
      assert (n + 1) * k == n * k + k;
      assert 2 * m * k == 2 * (m * k);
    }
  }

  lemma ScaleMonotone(a: nat, b: nat, k: int)
    requires a <= b && k > 0
    ensures a * k <= b * k
  {
  }

  /**
    Fuel only bounds how long we watch: once `Write` has returned within some number
    of passes, more passes change nothing.
   */
  lemma FuelOnlyBounds(policy: Policy, r: Resampler, p: seq<byte>, e: Engine, fuel: nat, more: nat)
    requires Conforming(e) && (r.IsOpen() ==> Constructed(r))
    requires !Outcome(policy, r, p, e, fuel).Unfinished?
    ensures Outcome(policy, r, p, e, fuel + more) == Outcome(policy, r, p, e, fuel)
  {
    if r.IsOpen() {
      ReachesLoop(r, p);
      if Engaged(r, p) {
        var c := PassOf(r, p);
        LoopFuelMonotone(policy, e, c, [], Allocate(c.framesOut), fuel, more);
      }
    }
  }

  lemma {:induction false} LoopFuelMonotone(policy: Policy, e: Engine, c: Pass, calls: seq<Request>,
                                            buf: seq<Slot>, fuel: nat, more: nat)
    requires Conforming(e) && 0 < c.framesOut == |buf| && WrittenBefore(buf, |calls|)
    requires !Loop(policy, e, c, calls, buf, fuel).OutOfFuel?
    ensures Loop(policy, e, c, calls, buf, fuel + more) == Loop(policy, e, c, calls, buf, fuel)
    decreases fuel
  {
    var q := ProcessRequest(c);
    var a := e(|calls|, q);
    assert Fits(q, a);
    if !IsSoxrError(a.err) && !(a.read == c.framesIn && a.done < c.framesOut) && a.done < c.framesOut {
      var buf1 := Fill(buf, 0, a.done, |calls|);
      FillFromStart(buf, a.done, |calls|);
      assert Loop(policy, e, c, calls, buf, fuel) == Loop(policy, e, c, calls + [q], buf1, fuel - 1);
      assert Loop(policy, e, c, calls, buf, fuel + more) == Loop(policy, e, c, calls + [q], buf1, fuel - 1 + more);
      LoopFuelMonotone(policy, e, c, calls + [q], buf1, fuel - 1, more);
    }
  }

  /**
    If every process call reads all the input offered (as soxr does when it has room),
    one pass suffices: `Write` returns after at most a process call and a flush.
   */
  lemma EagerEngineReturns(policy: Policy, r: Resampler, p: seq<byte>, e: Engine, fuel: nat)
    requires Conforming(e) && Constructed(r) && r.IsOpen() && Engaged(r, p) && fuel > 0
    requires forall k: nat :: e(k, ProcessRequest(PassOf(r, p))).read == PassOf(r, p).framesIn
    ensures var res := Outcome(policy, r, p, e, fuel);
      res.Returned? && 1 <= |res.calls| <= 2
  {
    ReachesLoop(r, p);
    var c := PassOf(r, p);
    EagerLoop(policy, e, c, fuel);
  }

  lemma EagerLoop(policy: Policy, e: Engine, c: Pass, fuel: nat)
    requires Conforming(e) && 0 < c.framesOut && fuel > 0
    requires e(0, ProcessRequest(c)).read == c.framesIn
    ensures var res := Loop(policy, e, c, [], Allocate(c.framesOut), fuel);
      !res.OutOfFuel? && 1 <= |res.calls| <= 2
  {
    var a := e(0, ProcessRequest(c));
    assert Fits(ProcessRequest(c), a);
  }

  /** An engine that accepts every call and neither reads nor writes a frame. */
  function Stall(k: nat, q: Request): Reply {
    Reply(0, 0, "")
  }

  /**
    The loop resubmits the same input and overwrites `done`, so an engine that keeps
    answering "read 0, wrote 0" holds `Write` in the loop forever: for every amount of
    fuel it has not returned, having made one identical process call per pass.
   */
  lemma StallingEngineHangs(policy: Policy, r: Resampler, p: seq<byte>, fuel: nat)
    requires Constructed(r) && r.IsOpen() && Engaged(r, p)
    ensures Conforming(Stall)
    ensures Outcome(policy, r, p, Stall, fuel)
         == Unfinished(seq(fuel, _ => ProcessRequest(PassOf(r, p))))
  {
    ReachesLoop(r, p);
    var c := PassOf(r, p);
    StallLoop(policy, c, [], Allocate(c.framesOut), fuel);
  }

  lemma {:induction false} StallLoop(policy: Policy, c: Pass, calls: seq<Request>, buf: seq<Slot>, fuel: nat)
    requires 0 < c.framesOut == |buf| && 0 < c.framesIn && WrittenBefore(buf, |calls|)
    ensures Conforming(Stall)
    ensures Loop(policy, Stall, c, calls, buf, fuel) == OutOfFuel(calls + seq(fuel, _ => ProcessRequest(c)))
    decreases fuel
  {
    if fuel > 0 {
      var q := ProcessRequest(c);
      assert Fill(buf, 0, 0, |calls|) == buf;
      StallLoop(policy, c, calls + [q], buf, fuel - 1);
      assert calls + [q] + seq(fuel - 1, _ => q) == calls + seq(fuel, _ => q);
    }
  }
}
